=== FILE: README.md ===
# Quantiles and frequent-items command-line front-ends, modelled in Dafny

The `ds` command-line tool wraps two sketch families of a streaming-sketches
library:

- `ds quant` uses quantiles sketches. It builds a sketch from numeric input
  lines and merges the working list of sketches through a union. It then
  answers query options against the most recent sketch: a linear histogram
  (`-h`), a log-scale histogram (`-lh`), values at ranks (`-r`, `-R`), ranks
  of values (`-v`, `-V`), or the deciles when no query option is given.
- `ds freq` uses frequent-items sketches. Each input line is an item with
  weight 1, or with `-w` a `weight<sep>item` line. The merge and query steps
  work the same way. The queries are the maximum error offset (`-e`), the
  stream length (`-n`), the top items with or without frequencies (`-t`,
  `-T`), the frequencies of given ids (`-F`, `-f`), or the default listing.

This project models those two front-ends.

## How the model is built

- **Sketches as terms.** A sketch is represented by how it came to be: built,
  then updated value by value, or produced by a merge or union. Everything
  the sketch library answers about a sketch comes from a `Library` record
  that the caller supplies.
- **Faults.** Each unchecked exception that ends an invocation is a `Fault`:
  a `NumberFormatException`, an out-of-bounds read, a negative array size,
  an `IllegalArgumentException`, or a library refusal.
- **Working list.** Merging, and building in the frequencies front-end,
  either fail or return the new working list, as a `Result`. The quantiles
  `BuildSketch` returns a `Result` holding one fresh sketch, which its
  `UpdateSketch` appends once every line has parsed. Updating the list
  returns an `Effect`: the list it leaves behind, plus the fault that
  stopped it, if any (the frequencies update keeps the updates applied
  before a fault).
- **Query output.** The quantiles queries can fault, so a run of them
  returns a `Partial` report: the blocks printed before the first fault,
  and that fault. The frequencies queries cannot fault, and their run
  returns the plain sequence of printed blocks.

### Files

- `outcomes.dfy`: `Option`, `Fault`, `Result`, `Effect` and `Partial`. Also
  `MapUntilFault`, which runs steps in order and stops at the first fault,
  and `ParseAll`.
- `java_semantics.dfy`:
  - `Integer.parseInt` and `Long.parseLong`, with their printing inverse;
  - `int` wrap-around and the `(long)` cast of a floating-point value;
  - `Arrays.sort` on a `double[]`, as a sorted permutation.
- `selection.dfy`: how each option is checked on its own, in a fixed order,
  and how that fixes which outputs appear and in what order.
- `splits.dfy`: the histogram split points, in linear and in log10 space.
- `quantiles_cl.dfy`: the quantiles front-end.
- `frequencies_cl.dfy`: the frequent-items front-end.

## Model

| member | source | states |
|---|---|---|
| Outcomes.MapUntilFault | src/main/java/com/yahoo/sketches/cmd/QuantilesCL.java:140-236 | The steps run in order. Every step before the fault succeeded, and the recorded results are exactly those steps' results. There is no fault exactly when every step ran. A fault is the failure of the step right after the last result. |
| Outcomes.ParseAll | src/main/java/com/yahoo/sketches/cmd/QuantilesCL.java:100-103 | Parsing succeeds exactly when every text parses. The values keep the input order. On failure, the reported text is the first one that does not parse. |
| JavaSemantics.ParseInteger | src/main/java/com/yahoo/sketches/cmd/FrequenciesCL.java:97 | A parsed value lies within the type's bounds. An empty text is rejected, and so is any text with a non-digit anywhere other than a leading `+` or `-`. A run of digits, alone or after one sign, parses to its decimal value (negated after `-`) exactly when that value is within the bounds. |
| JavaSemantics.ParseShowRoundTrip | src/main/java/com/yahoo/sketches/cmd/FrequenciesCL.java:144 | The partner of the parser: every in-range integer, printed in `Long.toString` form, parses back to itself. |
| JavaSemantics.ShowParseRoundTrip | src/main/java/com/yahoo/sketches/cmd/FrequenciesCL.java:97 | The other direction: any parsed text, printed again, parses to the same value. |
| JavaSemantics.DigitsOfShowNat | src/main/java/com/yahoo/sketches/cmd/FrequenciesCL.java:144 | The printed decimal digits of a natural number have that number as their value. |
| JavaSemantics.WrapInt | src/main/java/com/yahoo/sketches/cmd/QuantilesCL.java:144 | `int` arithmetic gives a value in the `int` range that agrees with the exact result modulo 2^32. It is the exact result whenever that fits. |
| JavaSemantics.LongCast | src/main/java/com/yahoo/sketches/cmd/QuantilesCL.java:152 | The `(long)` cast truncates toward zero and stays within one of the value. It saturates at the `long` bounds. |
| JavaSemantics.SortAscending | src/main/java/com/yahoo/sketches/cmd/QuantilesCL.java:208 | The sorted array is ascending, has the input's length, and is a permutation of the input. |
| JavaSemantics.ShowInteger | src/main/java/com/yahoo/sketches/cmd/FrequenciesCL.java:144 | `Long.toString` prints a `-` exactly for a negative value, then decimal digits without a leading zero. `ParseShowRoundTrip` is its partner. |
| SplitCalculator.Splits | src/main/java/com/yahoo/sketches/cmd/QuantilesCL.java:265-273 | A negative count faults with a negative array size. Otherwise there are exactly `n` boundaries, evenly spaced: the first is one step above the minimum and the last one step below the maximum. |
| SplitCalculator.GetSplits | src/main/java/com/yahoo/sketches/cmd/QuantilesCL.java:265-273 | The array-filling loop as written gives the same evenly spaced boundaries, and the same fault for a negative count. |
| SplitCalculator.SplitPointsEvenlySpaced | src/main/java/com/yahoo/sketches/cmd/QuantilesCL.java:266-271 | The boundary formula `min + delta * (i + 1)` yields evenly spaced points that end one step below the maximum. |
| SplitCalculator.EvenlySpacedIsSplitPoints | src/main/java/com/yahoo/sketches/cmd/QuantilesCL.java:266-271 | Conversely, any evenly spaced sequence of `n` boundaries is the one the formula computes. |
| SplitCalculator.SplitPointsIncreaseInside | src/main/java/com/yahoo/sketches/cmd/QuantilesCL.java:265-273 | When the minimum is below the maximum, the boundaries strictly increase and lie strictly inside the range. |
| SplitCalculator.SplitPointsDegenerate | src/main/java/com/yahoo/sketches/cmd/QuantilesCL.java:265-273 | When the minimum equals the maximum, every boundary equals it. |
| SplitCalculator.ZeroSubstituted | src/main/java/com/yahoo/sketches/cmd/QuantilesCL.java:249-250 | A non-zero minimum is kept. The substituted minimum is negative exactly when the minimum is negative, or is zero with a negative substitute. That is when the guard refuses it. It is zero only when both are zero. |
| SplitCalculator.LogSplits | src/main/java/com/yahoo/sketches/cmd/QuantilesCL.java:246-263 | An exact-zero minimum is replaced first. A negative (substituted) minimum is then refused with an illegal argument. After that, a negative count faults. Otherwise each boundary is 10 raised to the matching evenly spaced point between the log10 of the two ends. |
| SplitCalculator.LogSplitsOfZeroMinimum | src/main/java/com/yahoo/sketches/cmd/QuantilesCL.java:248-249 | A stream whose minimum is exactly zero gets the same boundaries as one whose minimum was the zero substitute. |
| SplitCalculator.LogSplitsIncreaseInside | src/main/java/com/yahoo/sketches/cmd/QuantilesCL.java:254-262 | Assume log10 and pow10 are increasing and the substituted range is positive. Then the log boundaries strictly increase. When pow10 also undoes log10, they lie strictly inside the range. |
| QuantilesCL.UpdateAll | src/main/java/com/yahoo/sketches/cmd/QuantilesCL.java:100-103 | The sketch receives exactly the given values, in order, and keeps its origin. |
| QuantilesCL.FeedAll | src/main/java/com/yahoo/sketches/cmd/QuantilesCL.java:128-130 | The union is fed exactly the sketches of the list, in order, and keeps its maximum k. |
| QuantilesCL.ResolveK | src/main/java/com/yahoo/sketches/cmd/QuantilesCL.java:89-91 | Without `-k` the library default is used. With `-k`, the value is `Integer.parseInt` of the text, and a text that does not parse is a number-format fault. |
| QuantilesCL.BuildSketch | src/main/java/com/yahoo/sketches/cmd/QuantilesCL.java:87-93 | Building succeeds exactly when `-k` resolves, and otherwise fails with the parse fault of `-k`. The result is an empty sketch with that k. |
| QuantilesCL.UpdateSketch | src/main/java/com/yahoo/sketches/cmd/QuantilesCL.java:95-109 | Nothing faults exactly when k resolves and every line parses. Then exactly one sketch is appended, and it holds every parsed value in line order. A fault leaves the list untouched. A `-k` that does not resolve gives its own parse fault before any line is read. Otherwise the fault names the first line that does not parse. |
| QuantilesCL.EmptyLineAbortsUpdate | src/main/java/com/yahoo/sketches/cmd/QuantilesCL.java:100-107 | An empty input line is not a number, so the update faults and nothing is appended. |
| QuantilesCL.MergeSketches | src/main/java/com/yahoo/sketches/cmd/QuantilesCL.java:121-132 | Merging succeeds exactly when `-k` resolves, and otherwise fails with the parse fault of `-k`. The union's result is appended after the unchanged list. It was fed every earlier sketch in order, with the resolved maximum k. |
| QuantilesCL.Selected | src/main/java/com/yahoo/sketches/cmd/QuantilesCL.java:138-228 | The queries appear in the fixed order of the option checks, none twice. A query appears exactly when its option is given. The deciles are the whole output exactly when no query option is given. |
| QuantilesCL.SplitCount | src/main/java/com/yahoo/sketches/cmd/QuantilesCL.java:142-145 | Without `-b` there are DEFAULT_NUM_BINS - 1 split points. With `-b`, there are `b - 1` in `int` arithmetic, and a text that does not parse is a number-format fault. The count is negative exactly when `b <= 0`, except that `b = MIN_VALUE` wraps. |
| QuantilesCL.ThirtyBinsTwentyNineSplits | src/main/java/com/yahoo/sketches/cmd/QuantilesCL.java:143-145 | `-b 30` asks for 29 split points. |
| QuantilesCL.HistogramRows | src/main/java/com/yahoo/sketches/cmd/QuantilesCL.java:149-158 | There is one row for the minimum, then one row per split point. Row `i` shows `(long)(pmf[i] * n)`. A PMF array that is too short faults at its first missing index. |
| QuantilesCL.LinearHistogramQuery | src/main/java/com/yahoo/sketches/cmd/QuantilesCL.java:140-159 | A `-b` parse fault or a negative split count comes first. The rows are the minimum and the evenly spaced boundaries between the sketch minimum and maximum, each with its scaled and cast mass. A PMF the library refuses is a library rejection, and a PMF shorter than the rows is an out-of-bounds read at its length. An illegal argument never arises. With the documented PMF length, the query succeeds whenever the library answers. |
| QuantilesCL.LogHistogramQuery | src/main/java/com/yahoo/sketches/cmd/QuantilesCL.java:161-181 | The zero substitute is parsed first, then `-b`. A negative substituted minimum is an illegal argument, and then a negative split count faults. The first row shows the sketch's own minimum and the other rows the log boundaries, each with `(long)(pmf[i] * n)` from the library's PMF at those boundaries. A PMF the library refuses is a library rejection, and a PMF shorter than the rows is an out-of-bounds read at its length. An illegal argument arises only from a negative substituted minimum. With the documented PMF length, the query succeeds whenever the library answers. |
| QuantilesCL.LogHistogramRowsIncrease | src/main/java/com/yahoo/sketches/cmd/QuantilesCL.java:169-180 | With a monotone log10 and pow10 and a positive substituted range, the boundaries the `-lh` rows show strictly increase, the sketch minimum first. |
| QuantilesCL.FromParse | src/main/java/com/yahoo/sketches/cmd/QuantilesCL.java:163 | `Double.parseDouble` either gives the value or a number-format fault naming the text. |
| QuantilesCL.RankRows | src/main/java/com/yahoo/sketches/cmd/QuantilesCL.java:183-202 | The query succeeds exactly when every rank parses and the library answers every rank. The rows follow the given order, each repeating the rank text with the value at that rank. A failure comes from the first rank that fails: a number-format fault naming it when it does not parse, or a library refusal when it parses but is not answered. |
| QuantilesCL.ValueRows | src/main/java/com/yahoo/sketches/cmd/QuantilesCL.java:204-225 | With `-v` the values are printed sorted: ascending, as a permutation of the parsed values. With `-V` they keep the file order. Each value is paired with the CDF entry at its index. A parse fault comes first. A CDF the library refuses is a library rejection, and a CDF shorter than the values is an out-of-bounds read at its length. With the documented CDF length, the query succeeds whenever the library answers. |
| QuantilesCL.PairRanks | src/main/java/com/yahoo/sketches/cmd/QuantilesCL.java:211-213 | The print loop of `-v` (and its copy for `-V` at lines 222-224): one row per value, in order, each value beside the CDF entry at the same index, so the printed values are exactly the values asked. |
| QuantilesCL.DecileRows | src/main/java/com/yahoo/sketches/cmd/QuantilesCL.java:227-236 | There is one row per rank, in order, with the value at that rank. The listing succeeds exactly when the library answers every rank; otherwise the fault is the library's refusal. |
| QuantilesCL.DecilesAreTenths | src/main/java/com/yahoo/sketches/cmd/QuantilesCL.java:229 | The default listing asks for the eleven ranks i/10, i = 0..10, in order. |
| QuantilesCL.RunQuery | src/main/java/com/yahoo/sketches/cmd/QuantilesCL.java:140-236 | Which option runs which computation. `-h` is the linear histogram and `-lh` the log one. `-r` and `-R` give the same rank rows for the same ranks, from the command line or a file. `-v` gives the value rows sorted first and `-V` the value rows in file order. No option gives the eleven deciles. A block is labelled with its query, and a query fails with the fault of its computation. |
| QuantilesCL.QueryCurrentSketch | src/main/java/com/yahoo/sketches/cmd/QuantilesCL.java:134-238 | An empty list prints nothing. Otherwise the selected queries run in order against the last sketch. Each printed block is its query's answer. The first failing query ends the output, and nothing after it is printed. |
| QuantilesCL.QueryReadsOnlyLast | src/main/java/com/yahoo/sketches/cmd/QuantilesCL.java:136-137 | Two lists that end in the same sketch give the same report. |
| QuantilesCL.QueryAfterMergeReadsUnion | src/main/java/com/yahoo/sketches/cmd/QuantilesCL.java:127-137 | After a merge, the queries read the union's result over the earlier sketches. |
| QuantilesCL.CastSumWithin | src/main/java/com/yahoo/sketches/cmd/QuantilesCL.java:152-156 | Each row loses less than one to truncation. The cast counts therefore sum to the total mass, short by less than the number of rows. |
| QuantilesCL.RowsCastMasses | src/main/java/com/yahoo/sketches/cmd/QuantilesCL.java:149-158 | For a stream length within `long` and masses in [0, 1], every histogram row counts its bin's mass times the length, cast to `long`, with no saturation. |
| QuantilesCL.HistogramCountsSumToStreamLength | src/main/java/com/yahoo/sketches/cmd/QuantilesCL.java:146-158 | When the PMF is a probability distribution, the histogram counts sum to at most the stream length, and fall short by less than the number of bars. |
| FrequenciesCL.ApplyAll | src/main/java/com/yahoo/sketches/cmd/FrequenciesCL.java:91-104 | The sketch's history grows by exactly the given updates, in order, and its k is unchanged. |
| FrequenciesCL.AppliedAll | src/main/java/com/yahoo/sketches/cmd/FrequenciesCL.java:97-103 | The events recorded are one `update` call per update, at the same index. |
| FrequenciesCL.MergeAll | src/main/java/com/yahoo/sketches/cmd/FrequenciesCL.java:130-132 | The union's history grows by one merge per sketch of the list, in order, and its k is unchanged. |
| FrequenciesCL.MergedInAll | src/main/java/com/yahoo/sketches/cmd/FrequenciesCL.java:130-132 | The events recorded are one `merge` call per sketch, at the same index. |
| FrequenciesCL.ResolveK | src/main/java/com/yahoo/sketches/cmd/FrequenciesCL.java:77-81 | Without `-k` the k is DEFAULT_SIZE. With `-k` it is the value of `Integer.parseInt`, and a text that does not parse is a number-format fault. |
| FrequenciesCL.BuildSketch | src/main/java/com/yahoo/sketches/cmd/FrequenciesCL.java:74-83 | Building succeeds exactly when k resolves. Exactly one sketch is appended after the unchanged list, with an empty history and the resolved k. |
| FrequenciesCL.MergeSketches | src/main/java/com/yahoo/sketches/cmd/FrequenciesCL.java:122-134 | Merging succeeds exactly when k resolves. The appended union has merged every earlier sketch in order, has the resolved k, and follows the unchanged list. |
| FrequenciesCL.BuildAndMergeShareK | src/main/java/com/yahoo/sketches/cmd/FrequenciesCL.java:77-129 | The build side (lines 77-80) and the merge side (lines 125-129) construct their sketches with the same k within one invocation. |
| FrequenciesCL.FirstDelimiter | src/main/java/com/yahoo/sketches/cmd/FrequenciesCL.java:93 | The split point is the first tab, comma or space: nothing before it is one, and it is one unless it is the end of the line. |
| FrequenciesCL.RunEnd | src/main/java/com/yahoo/sketches/cmd/FrequenciesCL.java:93 | The delimiter run of the split pattern is maximal: everything in it is a delimiter, and the character after it is not. |
| FrequenciesCL.SplitAtFirstRun | src/main/java/com/yahoo/sketches/cmd/FrequenciesCL.java:93 | The line splits into one token exactly when it holds no delimiter. Otherwise the two tokens and the delimiter run between them rebuild the line. The first token holds no delimiter, and the second does not start with one. |
| FrequenciesCL.SplitJoinRoundTrip | src/main/java/com/yahoo/sketches/cmd/FrequenciesCL.java:93 | Joining a delimiter-free head, a run of delimiters and a tail that does not start with one, then splitting, gives back the head and the tail. |
| FrequenciesCL.WeightedUpdate | src/main/java/com/yahoo/sketches/cmd/FrequenciesCL.java:93-98 | As written, a line without a delimiter faults reading index 1. Otherwise the update succeeds exactly when the first token parses as a `long`, counting the second token with that weight. |
| FrequenciesCL.WeightedUpdateIntended | src/main/java/com/yahoo/sketches/cmd/FrequenciesCL.java:58-61 | As described for `-w`, a single-token line is the item with weight 1. Any other line is decoded as before. |
| FrequenciesCL.UnweightedUpdate | src/main/java/com/yahoo/sketches/cmd/FrequenciesCL.java:103 | Without `-w` a line never faults. It counts the same as the `-w` line `1<TAB>line` whenever it does not open with a delimiter. |
| FrequenciesCL.Decoder | src/main/java/com/yahoo/sketches/cmd/FrequenciesCL.java:90-104 | Without `-w` every line is its own item with weight 1. With `-w` a line without a delimiter faults reading index 1. Any other line counts the tail after its first delimiter run with the weight its leading token parses to, and a leading token that is not a `long` is a number-format fault naming it. |
| FrequenciesCL.DecoderIntended | src/main/java/com/yahoo/sketches/cmd/FrequenciesCL.java:58-61 | The decoder the `-w` description promises. It agrees with the one as written on every line except a single-token line, which counts once as its own item. |
| FrequenciesCL.NonEmpty | src/main/java/com/yahoo/sketches/cmd/FrequenciesCL.java:92 | No kept line is empty, and the kept lines are the input lines with every empty one removed, counted with their repeats. |
| FrequenciesCL.NonEmptyAppend | src/main/java/com/yahoo/sketches/cmd/FrequenciesCL.java:91-92 | Skipping empty lines keeps the input order: the kept lines of two inputs read one after the other are those of the first, then those of the second. |
| FrequenciesCL.NonEmptyKeepsFullLines | src/main/java/com/yahoo/sketches/cmd/FrequenciesCL.java:101-102 | Input with no empty line is kept whole, in order and with its repeats. |
| FrequenciesCL.IssueUpdates | src/main/java/com/yahoo/sketches/cmd/FrequenciesCL.java:90-105 | Empty lines are skipped and the others are decoded in order. Each issued update is its line's decoding. The loop ends at the first line that fails, keeping the updates issued before it. |
| FrequenciesCL.UnweightedIssuesEachLine | src/main/java/com/yahoo/sketches/cmd/FrequenciesCL.java:100-105 | Without `-w`, every non-empty line is issued as `(line, 1)` in input order, and nothing faults. |
| FrequenciesCL.UpdateSketchWith | src/main/java/com/yahoo/sketches/cmd/FrequenciesCL.java:85-110 | An empty working list faults at index -1. Otherwise only the last sketch changes: its history grows by the issued updates and its k is kept. The loop's fault, if any, is the invocation's fault, and the updates before it stay applied. |
| FrequenciesCL.UpdateSketch | src/main/java/com/yahoo/sketches/cmd/FrequenciesCL.java:85-110 | An empty list faults. Without `-w`, the last sketch counts every non-empty line once, in order, and nothing faults. With `-w`, only the last sketch changes. It counts the non-empty lines in order, each line's tail with its parsed weight, up to the first line that has no delimiter or an unparsable weight. That line's exception is the fault: an out-of-bounds read at index 1, or a number-format fault naming the weight token. The lines before it stay counted. |
| FrequenciesCL.UpdateSketchIntended | src/main/java/com/yahoo/sketches/cmd/FrequenciesCL.java:58-61 | Under the described `-w` format, the only fault a non-empty list can meet in this model is a line whose leading weight token does not parse as a `long`. |
| FrequenciesCL.SingleTokenLineFaults | src/main/java/com/yahoo/sketches/cmd/FrequenciesCL.java:94-95 | As written, a `-w` line with a single token faults reading index 1, and so does the whole update. |
| FrequenciesCL.AppleLineFaults | src/main/java/com/yahoo/sketches/cmd/FrequenciesCL.java:94-95 | The line `apple` faults as written, but counts `apple` once under the described format. |
| FrequenciesCL.SingleTokenMeansWeightOne | src/main/java/com/yahoo/sketches/cmd/FrequenciesCL.java:58-61 | Under the described format, a single token counts exactly as an explicit weight of 1 does. |
| FrequenciesCL.LastEstimate | src/main/java/com/yahoo/sketches/cmd/FrequenciesCL.java:181-186 | The lookup gives 0 when no row has the id. Otherwise it gives the estimate of the last row that has it. |
| FrequenciesCL.LookupFrequency | src/main/java/com/yahoo/sketches/cmd/FrequenciesCL.java:181-186 | The scan as written, which overwrites the frequency at every match, computes the last-match estimate. |
| FrequenciesCL.DistinctRowsLookup | src/main/java/com/yahoo/sketches/cmd/FrequenciesCL.java:176-186 | When the items of the rows are distinct, the lookup finds the id's own row. |
| FrequenciesCL.FrequenciesOfIds | src/main/java/com/yahoo/sketches/cmd/FrequenciesCL.java:174-206 | There is one row per requested id, in request order. Each frequency is 0 or the estimate of a row for that id. |
| FrequenciesCL.QueryCurrentSketch | src/main/java/com/yahoo/sketches/cmd/FrequenciesCL.java:137-218 | An empty list prints nothing. Otherwise the blocks follow the fixed option order, none twice. A block appears exactly when it answers a chosen option about the last sketch. The default listing appears exactly when no option was chosen. |
| FrequenciesCL.QueryPrintsSomething | src/main/java/com/yahoo/sketches/cmd/FrequenciesCL.java:208-216 | A non-empty working list always prints at least one block. |
| FrequenciesCL.PrintedNumbersReadBack | src/main/java/com/yahoo/sketches/cmd/FrequenciesCL.java:142-152 | The `-e` and `-n` blocks hold `Long.toString` of the library's answer, so when that answer is a `long`, the printed text parses back to it. |
| FrequenciesCL.QueryReadsOnlyLast | src/main/java/com/yahoo/sketches/cmd/FrequenciesCL.java:138-139 | Two lists that end in the same sketch give the same output. |
| FrequenciesCL.QueryAfterMergeReadsUnion | src/main/java/com/yahoo/sketches/cmd/FrequenciesCL.java:130-139 | After a merge, the query reads the union that merged the earlier sketches. |
| Selection.Chosen | src/main/java/com/yahoo/sketches/cmd/FrequenciesCL.java:142-216 | The chosen outputs appear at strictly increasing places of the fixed order, inside the range checked. |
| Selection.ChosenMembers | src/main/java/com/yahoo/sketches/cmd/QuantilesCL.java:140-236 | An output is chosen exactly when its own place offers it. |
| Selection.AllSameIsSingle | src/main/java/com/yahoo/sketches/cmd/QuantilesCL.java:227-228 | No output is printed twice, so a list made only of the default output holds it once. |

## Left out

- I/O, and how the driver runs the steps, are not part of this model. The
  reader, `IOException`, option parsing, the driver loop in the base class,
  and the `Read Error` message on the error stream are left out. A
  `Fault` stands for the `RuntimeException` that ends the invocation.
- Serialization and deserialization of sketches
  (`QuantilesCL.java:111-119`, `FrequenciesCL.java:112-120`) are left out.
  They are byte-level library calls.
- `showHelp` and the option declarations are left out. They only print.
- Output formatting is left out: `String.format` patterns, headers, tabs,
  and the stray `Rank + TAB + Value` header line that `-r` prints before its
  real header. The model keeps each block's rows, not its text; only the
  numbers of `-e` and `-n` are kept as their `Long.toString` text.
- `queryFileReader` is left out. The tokens of a query file are given
  directly as a sequence.
- Doubles are idealised as reals: no rounding, infinities or NaN. log10,
  pow10 and `Double.parseDouble` are parameters supplied by the caller.
- The sketch algorithms themselves are left out. Minimum, maximum, stream
  length, PMF, CDF, quantile, maximum error and frequent items are answers
  of a caller-supplied `Library`. A call the library may refuse answers
  `None`, which becomes a `LibraryRejected` fault.
- QuantilesCL.DecileRows: `getQuantiles` over the eleven ranks is modelled
  as one quantile call per rank. This assumes the batch call answers what
  the single calls do; the library's code is not part of this model.
- QuantilesCL.BuildSketch: the library's own validation of k (`setK`,
  `setMaxK`) is not modelled. Every k that parses is accepted, because the
  library's bounds are not in the modelled files.
- FrequenciesCL.BuildSketch: the `ItemsSketch` constructor's check of k (a
  power of two) is not modelled, for the same reason.
- FrequenciesCL.UpdateSketchWith: it records every `update(item, count)`
  call. The library's treatment of zero and negative weights is not
  modelled.
- QuantilesCL.QueryCurrentSketch: a failing query is taken to print none of
  its rows. Java prints the header and any rows before the faulting row, but
  output text is not modelled.
- JavaSemantics.ParseInteger: only ASCII digits are accepted. Java also
  accepts other Unicode decimal digits.
- An array too large to allocate (an `OutOfMemoryError` for a huge `-b`) is
  not modelled. Integers and sequences are unbounded.

## Findings

| source | as written | input that shows it | evidently intended | confidence | as-written member | corrected member |
|---|---|---|---|---|---|---|
| src/main/java/com/yahoo/sketches/cmd/FrequenciesCL.java:94-95 | When a `-w` line splits into fewer than two tokens, the code reads `tokens[1]` of a one-element array. | the line `apple` with `-w` | The `-w` description (lines 58-61) says a single token is the item with weight 1, so the code should count `tokens[0]` once. | not executed | FrequenciesCL.SingleTokenLineFaults | FrequenciesCL.SingleTokenMeansWeightOne |

`FrequenciesCL.WeightedUpdate` and `FrequenciesCL.AppleLineFaults` model the
code as written: the line `apple` ends the whole invocation with an index
fault.

`FrequenciesCL.WeightedUpdateIntended` and
`FrequenciesCL.UpdateSketchIntended` are the corrected definitions. Under
them, the only fault a non-empty list can meet is an unparsable weight token.

=== FILE: frequencies_cl.dfy ===
/**
 The frequent-items front-end (`ds freq`): builds an items sketch, feeds it
 the lines of the input (whole lines with weight 1, or `weight<sep>item`
 lines with `-w`), merges the working list of sketches, and answers the
 query options against the last sketch of the list.

 As in the quantiles front-end, a sketch is represented by how it came to
 be, and what the library answers about a sketch comes from a `Library`
 record handed in by the caller.
 */
module FrequenciesCL {
  import opened Outcomes
  import opened JavaSemantics
  import opened Selection

  /** DEFAULT_SIZE: the k of every sketch built or merged without `-k`. */
  const DefaultSize: int := 1024

  /** The arguments of one `sketch.update(item, count)` call. */
  datatype Update = Update(item: string, count: int)

  datatype ItemsSketch =
    | Fresh(k: int)                                  // new ItemsSketch<>(k)
    | Updated(base: ItemsSketch, update: Update)     // sketch.update(item, count)
    | Merged(base: ItemsSketch, other: ItemsSketch)  // sketch.merge(other)

  /** One mutation of an items sketch after its construction. */
  datatype Event = Applied(update: Update) | MergedIn(other: ItemsSketch)

  /** The mutations a sketch went through, oldest first. */
  function History(s: ItemsSketch): seq<Event> {
    match s
    case Fresh(_) => []
    case Updated(b, u) => History(b) + [Applied(u)]
    case Merged(b, o) => History(b) + [MergedIn(o)]
  }

  /** The k the sketch was constructed with. */
  function Capacity(s: ItemsSketch): int {
    match s
    case Fresh(k) => k
    case Updated(b, _) => Capacity(b)
    case Merged(b, _) => Capacity(b)
  }

  /** One `Applied` event per update, in order. */
  function AppliedAll(updates: seq<Update>): (r: seq<Event>)
    ensures |r| == |updates|
    ensures forall i :: 0 <= i < |r| ==> r[i] == Applied(updates[i])
  {
    if updates == [] then [] else [Applied(updates[0])] + AppliedAll(updates[1..])
  }

  /** One `MergedIn` event per sketch, in order. */
  function MergedInAll(list: seq<ItemsSketch>): (r: seq<Event>)
    ensures |r| == |list|
    ensures forall i :: 0 <= i < |r| ==> r[i] == MergedIn(list[i])
  {
    if list == [] then [] else [MergedIn(list[0])] + MergedInAll(list[1..])
  }

  /** `sketch.update(item, count)` for every update, in order. */
  function ApplyAll(s: ItemsSketch, updates: seq<Update>): (r: ItemsSketch)
    ensures History(r) == History(s) + AppliedAll(updates)
    ensures Capacity(r) == Capacity(s)
    decreases |updates|
  {
    if updates == [] then s
    else
      var u := updates[0];
      var r := ApplyAll(Updated(s, u), updates[1..]);
      assert History(r) == (History(s) + [Applied(u)]) + AppliedAll(updates[1..]);
      assert History(r) == History(s) + ([Applied(u)] + AppliedAll(updates[1..]));
      r
  }

  /** `union.merge(sketch)` for every sketch of `list`, in order. */
  function MergeAll(union: ItemsSketch, list: seq<ItemsSketch>): (r: ItemsSketch)
    ensures History(r) == History(union) + MergedInAll(list)
    ensures Capacity(r) == Capacity(union)
    decreases |list|
  {
    if list == [] then union
    else
      var o := list[0];
      var r := MergeAll(Merged(union, o), list[1..]);
      assert History(r) == (History(union) + [MergedIn(o)]) + MergedInAll(list[1..]);
      assert History(r) == History(union) + ([MergedIn(o)] + MergedInAll(list[1..]));
      r
  }

  /** The `-k` option, parsed with Integer.parseInt, or DEFAULT_SIZE when absent. */
  function ResolveK(k: Option<string>): (r: Result<int>)
    ensures k.None? ==> r == Success(DefaultSize)
    ensures k.Some? ==> (r.Success? <==> ParseInt(k.value).Some?)
    ensures k.Some? && r.Success? ==> r.value == ParseInt(k.value).value
    ensures k.Some? && r.Failure? ==> r.error == NumberFormat(k.value)
  {
    match k
    case None => Success(DefaultSize)
    case Some(text) =>
      match ParseInt(text)
      case None => Failure(NumberFormat(text))
      case Some(v) => Success(v)
  }

  /** buildSketch: appends exactly one fresh sketch with the resolved k. */
  function BuildSketch(list: seq<ItemsSketch>, k: Option<string>): (r: Result<seq<ItemsSketch>>)
    ensures r.Success? <==> ResolveK(k).Success?
    ensures r.Failure? ==> r.error == ResolveK(k).error
    ensures r.Success? ==>
      && |r.value| == |list| + 1
      && r.value[..|list|] == list
      && History(Last(r.value)) == []
      && Capacity(Last(r.value)) == ResolveK(k).value
  {
    var size :- ResolveK(k);
    assert (list + [Fresh(size)])[..|list|] == list;
    Success(list + [Fresh(size)])
  }

  /** mergeSketches: a fresh sketch with the resolved k merges every entry of
      the working list in order and is appended; the earlier entries stay as
      they were and the merged sketch becomes the one queried. */
  function MergeSketches(list: seq<ItemsSketch>, k: Option<string>): (r: Result<seq<ItemsSketch>>)
    ensures r.Success? <==> ResolveK(k).Success?
    ensures r.Failure? ==> r.error == ResolveK(k).error
    ensures r.Success? ==>
      && |r.value| == |list| + 1
      && r.value[..|list|] == list
      && History(Last(r.value)) == MergedInAll(list)
      && Capacity(Last(r.value)) == ResolveK(k).value
  {
    var size :- ResolveK(k);
    var union := MergeAll(Fresh(size), list);
    assert (list + [union])[..|list|] == list;
    Success(list + [union])
  }

  /** Building and merging within one invocation use the same k. */
  lemma BuildAndMergeShareK(list: seq<ItemsSketch>, other: seq<ItemsSketch>, k: Option<string>)
    requires BuildSketch(list, k).Success?
    ensures MergeSketches(other, k).Success?
    ensures Capacity(Last(BuildSketch(list, k).value)) == Capacity(Last(MergeSketches(other, k).value))
  {
  }

  predicate IsDelimiter(c: char) {
    c == '\t' || c == ',' || c == ' '
  }

  predicate NoDelimiter(s: string) {
    forall m :: 0 <= m < |s| ==> !IsDelimiter(s[m])
  }

  predicate AllDelimiters(s: string) {
    forall m :: 0 <= m < |s| ==> IsDelimiter(s[m])
  }

  /** The index of the first delimiter of `s`, |s| when there is none. */
  function FirstDelimiter(s: string): (i: nat)
    ensures i <= |s|
    ensures NoDelimiter(s[..i])
    ensures i < |s| ==> IsDelimiter(s[i])
  {
    if s == [] || IsDelimiter(s[0]) then 0
    else
      var i := 1 + FirstDelimiter(s[1..]);
      assert forall m :: 1 <= m < i ==> s[..i][m] == s[1..][..i - 1][m - 1];
      i
  }

  /** The end of the maximal run of delimiters that starts at `i`. */
  function RunEnd(s: string, i: nat): (j: nat)
    requires i <= |s|
    ensures i <= j <= |s|
    ensures AllDelimiters(s[i..j])
    ensures j < |s| ==> !IsDelimiter(s[j])
    decreases |s| - i
  {
    if i < |s| && IsDelimiter(s[i]) then
      var j := RunEnd(s, i + 1);
      assert forall m :: 1 <= m < j - i ==> s[i..j][m] == s[i + 1..j][m - 1];
      j
    else i
  }

  /** `line.split("[\\t, ]+", 2)`: cut at the first maximal run of tabs,
      commas and spaces into at most two tokens. The tokens and the run put
      back together give the line; the first token holds no delimiter and
      the second does not start with one (it keeps any later delimiters). */
  function SplitAtFirstRun(s: string): (tokens: seq<string>)
    ensures 1 <= |tokens| <= 2
    ensures |tokens| == 1 <==> NoDelimiter(s)
    ensures |tokens| == 1 ==> tokens[0] == s
    ensures |tokens| == 2 ==>
      && |tokens[0]| + |tokens[1]| < |s|
      && s == tokens[0] + s[|tokens[0]|..|s| - |tokens[1]|] + tokens[1]
      && NoDelimiter(tokens[0])
      && AllDelimiters(s[|tokens[0]|..|s| - |tokens[1]|])
      && (tokens[1] == [] || !IsDelimiter(tokens[1][0]))
  {
    var i := FirstDelimiter(s);
    if i == |s| then
      assert s[..i] == s;
      [s]
    else
      var j := RunEnd(s, i);
      assert s == s[..i] + s[i..j] + s[j..];
      [s[..i], s[j..]]
  }

  /** Splitting reverses joining: a delimiter-free head, a run of delimiters
      and a tail that does not start with one split back into head and tail. */
  lemma SplitJoinRoundTrip(head: string, sep: string, tail: string)
    requires NoDelimiter(head) && |sep| > 0 && AllDelimiters(sep)
    requires tail == [] || !IsDelimiter(tail[0])
    ensures SplitAtFirstRun(head + sep + tail) == [head, tail]
  {
    var s := head + sep + tail;
    var i := FirstDelimiter(s);
    assert forall m :: 0 <= m < |head| ==> s[m] == head[m];
    assert IsDelimiter(s[|head|]);
    assert i == |head|;
    var j := RunEnd(s, i);
    assert forall m :: 0 <= m < |sep| ==> s[|head| + m] == sep[m];
    assert forall m :: i <= m < j ==> s[i..j][m - i] == s[m];
    assert |tail| > 0 ==> s[|head| + |sep|] == tail[0];
    assert j == |head| + |sep|;
    assert s[..i] == head;
    assert s[j..] == tail;
  }

  /** One `-w` line as written: `tokens[1]` is read before the weight is
      parsed, so a line without any delimiter reads past the end of a
      one-element array; otherwise the first token must parse as a long. */
  function WeightedUpdate(line: string): (r: Result<Update>)
    ensures NoDelimiter(line) ==> r == Failure(IndexOutOfBounds(1))
    ensures !NoDelimiter(line) ==>
      var tokens := SplitAtFirstRun(line);
      && (r.Success? <==> ParseLong(tokens[0]).Some?)
      && (r.Success? ==> r.value == Update(tokens[1], ParseLong(tokens[0]).value))
      && (r.Failure? ==> r.error == NumberFormat(tokens[0]))
  {
    var tokens := SplitAtFirstRun(line);
    if |tokens| < 2 then Failure(IndexOutOfBounds(1))
    else match ParseLong(tokens[0])
      case None => Failure(NumberFormat(tokens[0]))
      case Some(w) => Success(Update(tokens[1], w))
  }

  /** One `-w` line as the option's description promises: a line with a
      single token is the item itself, with weight 1. */
  function WeightedUpdateIntended(line: string): (r: Result<Update>)
    ensures NoDelimiter(line) ==> r == Success(Update(line, 1))
    ensures !NoDelimiter(line) ==> r == WeightedUpdate(line)
  {
    var tokens := SplitAtFirstRun(line);
    if |tokens| < 2 then Success(Update(tokens[0], 1))
    else WeightedUpdate(line)
  }

  /** One line without `-w`: the whole line is the item, with weight 1. It
      never faults, and it means what the `-w` line "1<TAB>line" means
      whenever the line does not open with a delimiter. */
  function UnweightedUpdate(line: string): (r: Result<Update>)
    ensures r.Success?
    ensures line == [] || !IsDelimiter(line[0]) ==> r == WeightedUpdate("1\t" + line)
  {
    if line == [] || !IsDelimiter(line[0]) then
      SplitJoinRoundTrip("1", "\t", line);
      assert "1" + "\t" + line == "1\t" + line;
      assert DigitsValue("1") == 1;
      Success(Update(line, 1))
    else
      Success(Update(line, 1))
  }

  /** The lines the read loop does not skip, in input order. */
  function NonEmpty(lines: seq<string>): (r: seq<string>)
    ensures forall i :: 0 <= i < |r| ==> r[i] != ""
    ensures forall l :: l in r <==> l in lines && l != ""
    ensures multiset(r) == multiset(lines)["" := 0]
  {
    if lines == [] then []
    else
      var rest := NonEmpty(lines[1..]);
      var front := if lines[0] == "" then [] else [lines[0]];
      KeepStep(lines, front, rest);
      front + rest
  }

  /** One step of NonEmpty: keeping the first line or not, in front of what
      the rest keeps, keeps exactly the non-empty lines. */
  lemma KeepStep(lines: seq<string>, front: seq<string>, rest: seq<string>)
    requires lines != [] && front == (if lines[0] == "" then [] else [lines[0]])
    requires forall i :: 0 <= i < |rest| ==> rest[i] != ""
    requires multiset(rest) == multiset(lines[1..])["" := 0]
    ensures forall i :: 0 <= i < |front + rest| ==> (front + rest)[i] != ""
    ensures multiset(front + rest) == multiset(lines)["" := 0]
    ensures forall l :: l in front + rest <==> l in lines && l != ""
  {
    assert lines == [lines[0]] + lines[1..];
    assert multiset(lines) == multiset([lines[0]]) + multiset(lines[1..]);
    assert multiset(front + rest) == multiset(front) + multiset(rest);
    forall l
      ensures l in front + rest <==> l in lines && l != ""
    {
      assert l in front + rest <==> l in multiset(front + rest);
      assert l in lines <==> l in multiset(lines);
    }
  }

  /** Skipping empty lines keeps the order of the rest: the kept lines of
      two inputs read one after the other are those of the first, then those
      of the second. */
  lemma {:induction false} NonEmptyAppend(a: seq<string>, b: seq<string>)
    ensures NonEmpty(a + b) == NonEmpty(a) + NonEmpty(b)
    decreases |a|
  {
    if a == [] {
      assert a + b == b;
    } else {
      assert (a + b)[0] == a[0];
      assert (a + b)[1..] == a[1..] + b;
      NonEmptyAppend(a[1..], b);
    }
  }

  /** Input without empty lines is kept whole, in order and with repeats. */
  lemma {:induction false} NonEmptyKeepsFullLines(lines: seq<string>)
    requires forall i :: 0 <= i < |lines| ==> lines[i] != ""
    ensures NonEmpty(lines) == lines
    decreases |lines|
  {
    if lines != [] {
      NonEmptyKeepsFullLines(lines[1..]);
    }
  }

  /** The read loop: empty lines are skipped, every other line is decoded and
      issued in input order, and the first line that fails to decode ends
      the loop with the updates before it already issued. */
  function IssueUpdates(lines: seq<string>, decode: string -> Result<Update>): (r: Partial<Update>)
    ensures |r.done| <= |NonEmpty(lines)|
    ensures forall i :: 0 <= i < |r.done| ==> decode(NonEmpty(lines)[i]) == Success(r.done[i])
    ensures r.fault.None? <==> |r.done| == |NonEmpty(lines)|
    ensures r.fault.Some? ==> decode(NonEmpty(lines)[|r.done|]) == Failure(r.fault.value)
  {
    MapUntilFault(NonEmpty(lines), decode)
  }

  /** Without `-w`, the loop issues `(line, 1)` for each non-empty line, in
      input order, and never faults. */
  lemma UnweightedIssuesEachLine(lines: seq<string>)
    ensures var ne := NonEmpty(lines);
      IssueUpdates(lines, UnweightedUpdate)
        == Partial(seq(|ne|, i requires 0 <= i < |ne| => Update(ne[i], 1)), None)
  {
  }

  /** A `-w` line with a delimiter: the tail after the first delimiter run
      is counted with the weight the leading token parses to, and a leading
      token that is not a `long` is a NumberFormatException naming it. */
  predicate DecodesAsWeighted(decode: string -> Result<Update>, l: string)
    requires !NoDelimiter(l)
  {
    var tokens := SplitAtFirstRun(l);
    match ParseLong(tokens[0])
    case None => decode(l) == Failure(NumberFormat(tokens[0]))
    case Some(w) => decode(l) == Success(Update(tokens[1], w))
  }

  /** The line decoder the loop uses as written. */
  function Decoder(weighted: bool): (decode: string -> Result<Update>)
    ensures !weighted ==> forall l :: decode(l) == Success(Update(l, 1))
    ensures weighted ==> forall l :: NoDelimiter(l) ==> decode(l) == Failure(IndexOutOfBounds(1))
    ensures weighted ==> forall l :: !NoDelimiter(l) ==>
      (decode(l).Success? <==> ParseLong(SplitAtFirstRun(l)[0]).Some?)
    ensures weighted ==> forall l :: !NoDelimiter(l) ==> DecodesAsWeighted(decode, l)
  {
    if weighted then WeightedUpdate else UnweightedUpdate
  }

  /** The line decoder the `-w` description promises: it differs from the
      one as written only on single-token lines, which count once. */
  function DecoderIntended(weighted: bool): (decode: string -> Result<Update>)
    ensures !weighted ==> forall l :: decode(l) == Success(Update(l, 1))
    ensures weighted ==> forall l :: NoDelimiter(l) ==> decode(l) == Success(Update(l, 1))
    ensures weighted ==> forall l :: !NoDelimiter(l) ==>
      (decode(l).Success? <==> ParseLong(SplitAtFirstRun(l)[0]).Some?)
    ensures weighted ==> forall l :: !NoDelimiter(l) ==> DecodesAsWeighted(decode, l)
  {
    if weighted then WeightedUpdateIntended else UnweightedUpdate
  }

  /** updateSketch with a given line decoder: the issued updates go to the
      last sketch of the list, in place. A fault leaves the updates issued so
      far in it; an empty list faults on `sketches.get(-1)`. */
  function UpdateSketchWith(list: seq<ItemsSketch>, lines: seq<string>,
                            decode: string -> Result<Update>): (r: Effect<seq<ItemsSketch>>)
    ensures |list| == 0 ==> r == Effect(list, Some(IndexOutOfBounds(-1)))
    ensures |list| > 0 ==>
      var issued := IssueUpdates(lines, decode);
      && |r.state| == |list|
      && r.state[..|list| - 1] == list[..|list| - 1]
      && History(Last(r.state)) == History(Last(list)) + AppliedAll(issued.done)
      && Capacity(Last(r.state)) == Capacity(Last(list))
      && r.fault == issued.fault
  {
    if |list| == 0 then Effect(list, Some(IndexOutOfBounds(-1)))
    else
      var issued := IssueUpdates(lines, decode);
      var state := list[..|list| - 1] + [ApplyAll(Last(list), issued.done)];
      assert state[..|list| - 1] == list[..|list| - 1];
      Effect(state, issued.fault)
  }

  /** Without `-w`, the last sketch counts every non-empty line once, in
      input order, and nothing faults. */
  predicate CountsEachLineOnce(list: seq<ItemsSketch>, lines: seq<string>, r: Effect<seq<ItemsSketch>>)
    requires |list| > 0
  {
    var ne := NonEmpty(lines);
    && r.fault.None?
    && |r.state| == |list|
    && r.state[..|list| - 1] == list[..|list| - 1]
    && History(Last(r.state))
       == History(Last(list)) + AppliedAll(seq(|ne|, i requires 0 <= i < |ne| => Update(ne[i], 1)))
  }

  /** A `-w` line the loop as written counts: it has a delimiter and its
      leading token parses as a `long`. */
  predicate WeightParses(l: string) {
    !NoDelimiter(l) && ParseLong(SplitAtFirstRun(l)[0]).Some?
  }

  /** The exception a `-w` line that is not counted raises as written:
      reading `tokens[1]` of a one-token line, or parsing a bad weight. */
  function WeightedLineFault(l: string): Fault {
    if NoDelimiter(l) then IndexOutOfBounds(1) else NumberFormat(SplitAtFirstRun(l)[0])
  }

  /** With `-w`, the last sketch counts the non-empty lines in input order,
      each line's tail with its parsed weight, up to the first line that is
      not counted; that line's exception is the fault, and the lines counted
      before it stay counted. */
  predicate CountsWeightedPrefix(list: seq<ItemsSketch>, lines: seq<string>, r: Effect<seq<ItemsSketch>>)
    requires |list| > 0 && |r.state| == |list|
  {
    var ne := NonEmpty(lines);
    var before := History(Last(list));
    var after := History(Last(r.state));
    var m := |after| - |before|;
    && r.state[..|list| - 1] == list[..|list| - 1]
    && 0 <= m <= |ne|
    && after[..|before|] == before
    && (forall i :: 0 <= i < m ==>
          && WeightParses(ne[i])
          && after[|before| + i]
             == Applied(Update(SplitAtFirstRun(ne[i])[1], ParseLong(SplitAtFirstRun(ne[i])[0]).value)))
    && (r.fault.None? <==> m == |ne|)
    && (m < |ne| ==> !WeightParses(ne[m]) && r.fault == Some(WeightedLineFault(ne[m])))
  }

  /** updateSketch as written: an empty list faults; without `-w` every
      non-empty line is counted once; with `-w` the weighted lines are
      counted up to the first one that raises. */
  function UpdateSketch(list: seq<ItemsSketch>, lines: seq<string>, weighted: bool): (r: Effect<seq<ItemsSketch>>)
    ensures |list| == 0 ==> r.fault == Some(IndexOutOfBounds(-1))
    ensures |list| > 0 && !weighted ==> CountsEachLineOnce(list, lines, r)
    ensures |list| > 0 && weighted ==> |r.state| == |list| && CountsWeightedPrefix(list, lines, r)
  {
    UnweightedIssuesEachLine(lines);
    var r := UpdateSketchWith(list, lines, Decoder(weighted));
    if |list| > 0 && weighted then
      WeightedPrefixCounted(list, lines, r);
      r
    else
      r
  }

  /** The `-w` loop as written, read off the general update. */
  lemma WeightedPrefixCounted(list: seq<ItemsSketch>, lines: seq<string>, r: Effect<seq<ItemsSketch>>)
    requires |list| > 0 && r == UpdateSketchWith(list, lines, Decoder(true))
    ensures |r.state| == |list| && CountsWeightedPrefix(list, lines, r)
  {
    var ne := NonEmpty(lines);
    var issued := IssueUpdates(lines, WeightedUpdate);
    assert Decoder(true) == WeightedUpdate;
    var before := History(Last(list));
    var after := History(Last(r.state));
    var added := AppliedAll(issued.done);
    assert after == before + added;
    forall i | 0 <= i < |issued.done|
      ensures WeightParses(ne[i])
      ensures after[|before| + i]
              == Applied(Update(SplitAtFirstRun(ne[i])[1], ParseLong(SplitAtFirstRun(ne[i])[0]).value))
    {
      WeightedLineCounted(ne[i]);
      assert after[|before| + i] == added[i];
    }
    if |issued.done| < |ne| {
      WeightedLineRaises(ne[|issued.done|]);
    }
  }

  /** A `-w` line that decodes is delimited, has a parsing weight, and
      counts its tail with that weight. */
  lemma WeightedLineCounted(l: string)
    requires WeightedUpdate(l).Success?
    ensures WeightParses(l)
    ensures WeightedUpdate(l).value == Update(SplitAtFirstRun(l)[1], ParseLong(SplitAtFirstRun(l)[0]).value)
  {
  }

  /** A `-w` line that does not decode raises its own exception. */
  lemma WeightedLineRaises(l: string)
    requires WeightedUpdate(l).Failure?
    ensures !WeightParses(l)
    ensures WeightedUpdate(l).error == WeightedLineFault(l)
  {
  }

  /** updateSketch with single-token `-w` lines read as weight 1: the only
      line that can then stop the loop is one whose leading weight token
      does not parse as a `long`. */
  function UpdateSketchIntended(list: seq<ItemsSketch>, lines: seq<string>, weighted: bool): (r: Effect<seq<ItemsSketch>>)
    ensures |list| == 0 ==> r.fault == Some(IndexOutOfBounds(-1))
    ensures |list| > 0 && !weighted ==> CountsEachLineOnce(list, lines, r)
    ensures |list| > 0 && r.fault.Some? ==>
      exists l :: l in lines && !NoDelimiter(l)
        && ParseLong(SplitAtFirstRun(l)[0]).None?
        && r.fault.value == NumberFormat(SplitAtFirstRun(l)[0])
  {
    UnweightedIssuesEachLine(lines);
    var r := UpdateSketchWith(list, lines, DecoderIntended(weighted));
    if |list| > 0 && r.fault.Some? then
      var ne := NonEmpty(lines);
      var issued := IssueUpdates(lines, DecoderIntended(weighted));
      var l := ne[|issued.done|];
      assert l in lines;
      r
    else r
  }

  /** As written, a `-w` line holding a single token ends the invocation with
      an index fault instead of counting the item once. */
  lemma SingleTokenLineFaults(item: string)
    requires item != "" && NoDelimiter(item)
    ensures WeightedUpdate(item) == Failure(IndexOutOfBounds(1))
    ensures UpdateSketch([Fresh(DefaultSize)], [item], true).fault == Some(IndexOutOfBounds(1))
  {
    assert NonEmpty([item]) == [item];
  }

  /** A concrete input showing it: the line "apple" under `-w`, which the
      corrected reading counts once. */
  lemma AppleLineFaults()
    ensures WeightedUpdate("apple") == Failure(IndexOutOfBounds(1))
    ensures WeightedUpdateIntended("apple") == Success(Update("apple", 1))
  {
    assert NoDelimiter("apple");
  }

  /** Corrected, a single token counts the item with weight 1, exactly as an
      explicit weight of 1 does. */
  lemma SingleTokenMeansWeightOne(item: string)
    requires item != "" && NoDelimiter(item)
    ensures WeightedUpdateIntended(item) == Success(Update(item, 1))
    ensures WeightedUpdateIntended("1\t" + item) == Success(Update(item, 1))
  {
    SplitJoinRoundTrip("1", "\t", item);
    assert "1" + "\t" + item == "1\t" + item;
    assert DigitsValue("1") == 1;
    assert !NoDelimiter("1\t" + item) by {
      assert IsDelimiter(("1\t" + item)[1]);
    }
  }

  /** One row of getFrequentItems: an item and its estimated frequency. */
  datatype Row = Row(item: string, estimate: int)

  /** The estimate of the last row whose item is `id`, or 0 when no row is. */
  function LastEstimate(rows: seq<Row>, id: string): (f: int)
    ensures (forall j :: 0 <= j < |rows| ==> rows[j].item != id) ==> f == 0
    ensures (exists j :: 0 <= j < |rows| && rows[j].item == id) ==>
      exists j :: 0 <= j < |rows| && rows[j].item == id && f == rows[j].estimate
        && forall m :: j < m < |rows| ==> rows[m].item != id
  {
    if rows == [] then 0
    else if Last(rows).item == id then Last(rows).estimate
    else
      var f := LastEstimate(rows[..|rows| - 1], id);
      assert forall m :: 0 <= m < |rows| - 1 ==> rows[..|rows| - 1][m] == rows[m];
      f
  }

  /** The id-to-frequency scan as written: every row is visited, and each one
      whose item equals the id overwrites the frequency, starting from 0. */
  method LookupFrequency(rows: seq<Row>, id: string) returns (freq: int)
    ensures freq == LastEstimate(rows, id)
  {
    freq := 0;
    var j := 0;
    while j < |rows|
      invariant 0 <= j <= |rows|
      invariant freq == LastEstimate(rows[..j], id)
    {
      if rows[j].item == id {
        freq := rows[j].estimate;
      }
      assert rows[..j + 1][..j] == rows[..j];
      j := j + 1;
    }
    assert rows[..|rows|] == rows;
  }

  /** When the items of the rows are distinct (as getFrequentItems returns
      them), the lookup finds the row of the id itself. */
  lemma DistinctRowsLookup(rows: seq<Row>, id: string, j: int)
    requires forall a, b :: 0 <= a < b < |rows| ==> rows[a].item != rows[b].item
    requires 0 <= j < |rows| && rows[j].item == id
    ensures LastEstimate(rows, id) == rows[j].estimate
  {
  }

  /** `-F` / `-f`: one row per requested id, in request order, carrying the
      looked-up frequency. */
  function FrequenciesOfIds(rows: seq<Row>, ids: seq<string>): (r: seq<Row>)
    ensures |r| == |ids|
    ensures forall i :: 0 <= i < |ids| ==> r[i].item == ids[i]
    ensures forall i :: 0 <= i < |ids| ==>
      (r[i].estimate == 0 || exists j :: 0 <= j < |rows| && rows[j].item == ids[i] && rows[j].estimate == r[i].estimate)
    ensures forall i :: 0 <= i < |ids| ==> r[i].estimate == LastEstimate(rows, ids[i])
  {
    seq(|ids|, i requires 0 <= i < |ids| => Row(ids[i], LastEstimate(rows, ids[i])))
  }

  /** What the library answers about a sketch. */
  datatype Library = Library(
    maxError: ItemsSketch -> int,           // getMaximumError
    streamLength: ItemsSketch -> int,       // getStreamLength
    frequentItems: ItemsSketch -> seq<Row>) // getFrequentItems(ErrorType.NO_FALSE_POSITIVES)

  /** The options of one invocation. `-f` carries the tokens the query file
      reader produced. */
  datatype Flags = Flags(
    k: Option<string>,              // -k
    weighted: bool,                 // -w
    maxError: bool,                 // -e
    streamLength: bool,             // -n
    topIds: bool,                   // -t
    topIdsWithFrequency: bool,      // -T
    ids: Option<seq<string>>,       // -F ID...
    idFile: Option<seq<string>>)    // -f FILE

  predicate AnyQueryFlag(f: Flags) {
    f.maxError || f.streamLength || f.topIds || f.topIdsWithFrequency || f.ids.Some? || f.idFile.Some?
  }

  /** The output of one query option. */
  datatype Block =
    | MaxErrorOffset(offset: string)      // -e: "Max Error Offset: " + Long.toString(..)
    | StreamLength(length: string)        // -n: "Stream Length   : " + Long.toString(..)
    | Items(items: seq<string>)           // -t: "Items" then one item per line
    | ItemsWithFrequency(rows: seq<Row>)  // -T: "Items<TAB>Frequency"
    | IdFrequencies(rows: seq<Row>)       // -F: "Items<TAB>Frequency"
    | IdFileFrequencies(rows: seq<Row>)   // -f: "Items<TAB>Frequency"
    | DefaultListing(rows: seq<Row>)      // no query option: "Items<TAB>Frequency"

  function ItemNames(rows: seq<Row>): (r: seq<string>)
    ensures |r| == |rows|
    ensures forall i :: 0 <= i < |rows| ==> r[i] == rows[i].item
  {
    seq(|rows|, i requires 0 <= i < |rows| => rows[i].item)
  }

  /** Whether `b` is the answer some chosen option asks of sketch `s`. */
  predicate Answers(f: Flags, s: ItemsSketch, lib: Library, b: Block) {
    var rows := lib.frequentItems(s);
    match b
    case MaxErrorOffset(o) => f.maxError && o == ShowInteger(lib.maxError(s))
    case StreamLength(n) => f.streamLength && n == ShowInteger(lib.streamLength(s))
    case Items(items) => f.topIds && items == ItemNames(rows)
    case ItemsWithFrequency(rs) => f.topIdsWithFrequency && rs == rows
    case IdFrequencies(rs) => f.ids.Some? && rs == FrequenciesOfIds(rows, f.ids.value)
    case IdFileFrequencies(rs) => f.idFile.Some? && rs == FrequenciesOfIds(rows, f.idFile.value)
    case DefaultListing(rs) => !AnyQueryFlag(f) && rs == rows
  }

  /** The place of each block in the fixed order the options are checked in. */
  function Position(b: Block): nat {
    match b
    case MaxErrorOffset(_) => 0
    case StreamLength(_) => 1
    case Items(_) => 2
    case ItemsWithFrequency(_) => 3
    case IdFrequencies(_) => 4
    case IdFileFrequencies(_) => 5
    case DefaultListing(_) => 6
  }

  /** The number of places in the fixed order. */
  const SlotCount: nat := 7

  /** The block at place `p` about sketch `s` when its option was chosen. */
  function Slot(f: Flags, s: ItemsSketch, lib: Library, p: nat): (r: Option<Block>)
    ensures r.Some? ==> Position(r.value) == p
  {
    var rows := lib.frequentItems(s);
    if p == 0 then (if f.maxError then Some(MaxErrorOffset(ShowInteger(lib.maxError(s)))) else None)
    else if p == 1 then (if f.streamLength then Some(StreamLength(ShowInteger(lib.streamLength(s)))) else None)
    else if p == 2 then (if f.topIds then Some(Items(ItemNames(rows))) else None)
    else if p == 3 then (if f.topIdsWithFrequency then Some(ItemsWithFrequency(rows)) else None)
    else if p == 4 then (if f.ids.Some? then Some(IdFrequencies(FrequenciesOfIds(rows, f.ids.value))) else None)
    else if p == 5 then (if f.idFile.Some? then Some(IdFileFrequencies(FrequenciesOfIds(rows, f.idFile.value))) else None)
    else if p == 6 then (if !AnyQueryFlag(f) then Some(DefaultListing(rows)) else None)
    else None
  }

  /** A block sits in its own place exactly when it answers a chosen option. */
  lemma SlotIffAnswers(f: Flags, s: ItemsSketch, lib: Library, b: Block)
    ensures Slot(f, s, lib, Position(b)) == Some(b) <==> Answers(f, s, lib, b)
  {
  }

  /** The places of the fixed order, as a slot function. */
  function SlotOf(f: Flags, s: ItemsSketch, lib: Library): (slot: nat -> Option<Block>)
    ensures Places(slot, Position)
    ensures forall p: nat :: slot(p) == Slot(f, s, lib, p)
  {
    (p: nat) => Slot(f, s, lib, p)
  }

  lemma ChosenIffAnswers(f: Flags, s: ItemsSketch, lib: Library, b: Block)
    ensures b in Chosen(SlotOf(f, s, lib), Position, 0, SlotCount) <==> Answers(f, s, lib, b)
  {
    ChosenMembers(SlotOf(f, s, lib), Position, 0, SlotCount, b);
    SlotIffAnswers(f, s, lib, b);
  }

  /** queryCurrentSketch: nothing when the working list is empty; otherwise
      one block per chosen option, in a fixed order, each answering its option
      about the last sketch of the list; every chosen option is answered, and
      the default listing appears exactly when no option was chosen. */
  function QueryCurrentSketch(list: seq<ItemsSketch>, f: Flags, lib: Library): (r: seq<Block>)
    ensures |list| == 0 ==> r == []
    ensures InOrder(r, Position)
    ensures |list| > 0 ==> forall b :: b in r <==> Answers(f, Last(list), lib, b)
  {
    if |list| == 0 then []
    else
      var s := Last(list);
      var r := Chosen(SlotOf(f, s, lib), Position, 0, SlotCount);
      assert forall b :: b in r <==> Answers(f, s, lib, b) by {
        forall b
          ensures b in r <==> Answers(f, s, lib, b)
        {
          ChosenIffAnswers(f, s, lib, b);
        }
      }
      r
  }

  /** A non-empty list always prints something: the chosen options' blocks,
      or the default listing. */
  lemma QueryPrintsSomething(list: seq<ItemsSketch>, f: Flags, lib: Library)
    requires |list| > 0
    ensures QueryCurrentSketch(list, f, lib) != []
  {
    var s := Last(list);
    var rows := lib.frequentItems(s);
    if f.maxError {
      assert Answers(f, s, lib, MaxErrorOffset(ShowInteger(lib.maxError(s))));
    } else if f.streamLength {
      assert Answers(f, s, lib, StreamLength(ShowInteger(lib.streamLength(s))));
    } else if f.topIds {
      assert Answers(f, s, lib, Items(ItemNames(rows)));
    } else if f.topIdsWithFrequency {
      assert Answers(f, s, lib, ItemsWithFrequency(rows));
    } else if f.ids.Some? {
      assert Answers(f, s, lib, IdFrequencies(FrequenciesOfIds(rows, f.ids.value)));
    } else if f.idFile.Some? {
      assert Answers(f, s, lib, IdFileFrequencies(FrequenciesOfIds(rows, f.idFile.value)));
    } else {
      assert Answers(f, s, lib, DefaultListing(rows));
    }
  }

  /** The numbers `-e` and `-n` print are `long` values in Long.toString
      form, so the printed text reads back, through Long.parseLong, as the
      value the library answered. */
  lemma PrintedNumbersReadBack(list: seq<ItemsSketch>, f: Flags, lib: Library)
    requires |list| > 0
    requires MinLong <= lib.maxError(Last(list)) <= MaxLong
    requires MinLong <= lib.streamLength(Last(list)) <= MaxLong
    ensures forall b :: b in QueryCurrentSketch(list, f, lib) && b.MaxErrorOffset? ==>
      ParseLong(b.offset) == Some(lib.maxError(Last(list)))
    ensures forall b :: b in QueryCurrentSketch(list, f, lib) && b.StreamLength? ==>
      ParseLong(b.length) == Some(lib.streamLength(Last(list)))
  {
    ParseShowRoundTrip(lib.maxError(Last(list)), MinLong, MaxLong);
    ParseShowRoundTrip(lib.streamLength(Last(list)), MinLong, MaxLong);
  }

  /** The query reads the last sketch only: lists that end in the same
      sketch give the same output. */
  lemma QueryReadsOnlyLast(list: seq<ItemsSketch>, other: seq<ItemsSketch>, f: Flags, lib: Library)
    requires |list| > 0 && |other| > 0 && Last(list) == Last(other)
    ensures QueryCurrentSketch(list, f, lib) == QueryCurrentSketch(other, f, lib)
  {
  }

  /** After a merge, the query reads the merged sketch. */
  lemma QueryAfterMergeReadsUnion(list: seq<ItemsSketch>, k: Option<string>, f: Flags, lib: Library)
    requires MergeSketches(list, k).Success?
    ensures QueryCurrentSketch(MergeSketches(list, k).value, f, lib)
      == QueryCurrentSketch([MergeAll(Fresh(ResolveK(k).value), list)], f, lib)
  {
  }
}

=== FILE: java_semantics.dfy ===
/**
 The pieces of the Java platform the two front-ends lean on, written out over
 unbounded integers and reals: Integer.parseInt and Long.parseLong (radix 10),
 `int` subtraction with 32-bit wrap-around, the narrowing cast `(long)` of a
 floating-point value, and Arrays.sort on a `double[]`.
 */
module JavaSemantics {
  import opened Outcomes

  const MinInt: int := -0x8000_0000
  const MaxInt: int := 0x7FFF_FFFF
  const MinLong: int := -0x8000_0000_0000_0000
  const MaxLong: int := 0x7FFF_FFFF_FFFF_FFFF

  predicate IsDigit(c: char) {
    '0' <= c <= '9'
  }

  predicate AllDigits(s: string) {
    forall i :: 0 <= i < |s| ==> IsDigit(s[i])
  }

  /** The value of a run of decimal digits, most significant first. */
  function DigitsValue(s: string): nat
    requires AllDigits(s)
  {
    if s == [] then 0
    else 10 * DigitsValue(s[..|s| - 1]) + (s[|s| - 1] as int - '0' as int)
  }

  /** The decimal digits of `n` with no leading zero (Long.toString of a
      non-negative value). */
  function ShowNat(n: nat): (s: string)
    ensures |s| > 0 && AllDigits(s)
    ensures |s| > 1 ==> s[0] != '0'
  {
    var d := ['0' + (n % 10) as char];
    if n < 10 then d else ShowNat(n / 10) + d
  }

  /** Long.toString / Integer.toString: a '-' for negative values, then the digits. */
  function ShowInteger(v: int): (s: string)
    ensures |s| > 0
    ensures s[0] == '-' <==> v < 0
    ensures v < 0 ==> |s| > 1 && AllDigits(s[1..]) && s[1] != '0'
    ensures 0 <= v ==> AllDigits(s) && (|s| > 1 ==> s[0] != '0')
  {
    if v < 0 then "-" + ShowNat(-v) else ShowNat(v)
  }

  /** Integer.parseInt (bounds MinInt..MaxInt) and Long.parseLong (bounds
      MinLong..MaxLong): an optional '+' or '-' then at least one digit,
      whose value must lie within the bounds. */
  function ParseInteger(s: string, lo: int, hi: int): (r: Option<int>)
    ensures r.Some? ==> lo <= r.value <= hi
    ensures r.Some? ==> exists i :: 0 <= i < |s| && IsDigit(s[i])
    ensures |s| == 0 || (|s| == 1 && !IsDigit(s[0])) ==> r.None?
    ensures (exists i :: 0 <= i < |s| && !IsDigit(s[i]) && !(i == 0 && (s[0] == '-' || s[0] == '+'))) ==> r.None?
    ensures |s| > 0 && AllDigits(s) ==>
      && (r.Some? <==> lo <= DigitsValue(s) <= hi)
      && (r.Some? ==> r.value == DigitsValue(s))
    ensures |s| > 1 && (s[0] == '-' || s[0] == '+') && AllDigits(s[1..]) ==>
      var v: int := if s[0] == '-' then -(DigitsValue(s[1..]) as int) else DigitsValue(s[1..]);
      && (r.Some? <==> lo <= v <= hi)
      && (r.Some? ==> r.value == v)
  {
    if |s| == 0 then None
    else
      var digits := if s[0] == '-' || s[0] == '+' then s[1..] else s;
      if |digits| == 0 || !AllDigits(digits) then None
      else
        assert IsDigit(s[|s| - |digits|]);
        var v: int := if s[0] == '-' then -(DigitsValue(digits) as int) else DigitsValue(digits);
        if lo <= v <= hi then Some(v) else None
  }

  function ParseInt(s: string): Option<int> {
    ParseInteger(s, MinInt, MaxInt)
  }

  function ParseLong(s: string): Option<int> {
    ParseInteger(s, MinLong, MaxLong)
  }

  lemma {:induction false} DigitsOfShowNat(n: nat)
    ensures DigitsValue(ShowNat(n)) == n
    decreases n
  {
    var d := ['0' + (n % 10) as char];
    if n >= 10 {
      DigitsOfShowNat(n / 10);
      var s := ShowNat(n / 10) + d;
      assert s[..|s| - 1] == ShowNat(n / 10);
    }
  }

  /** Parsing reads back every value the platform prints. */
  lemma ParseShowRoundTrip(v: int, lo: int, hi: int)
    requires lo <= v <= hi
    ensures ParseInteger(ShowInteger(v), lo, hi) == Some(v)
  {
    DigitsOfShowNat(if v < 0 then -v else v);
    if v < 0 {
      assert ShowInteger(v)[1..] == ShowNat(-v);
    }
  }

  /** Every parsed value prints back to a text that parses to it again. */
  lemma ShowParseRoundTrip(s: string, lo: int, hi: int)
    requires ParseInteger(s, lo, hi).Some?
    ensures ParseInteger(ShowInteger(ParseInteger(s, lo, hi).value), lo, hi) == ParseInteger(s, lo, hi)
  {
    ParseShowRoundTrip(ParseInteger(s, lo, hi).value, lo, hi);
  }

  /** The Java `int` that equals `x` modulo 2^32 (the result of `int` arithmetic). */
  function WrapInt(x: int): (r: int)
    ensures MinInt <= r <= MaxInt
    ensures (r - x) % 0x1_0000_0000 == 0
    ensures MinInt <= x <= MaxInt ==> r == x
  {
    (x - MinInt) % 0x1_0000_0000 + MinInt
  }

  /** The cast `(long) x` of a finite value: truncation toward zero,
      saturating at the bounds of `long`. */
  function LongCast(x: real): (r: int)
    ensures MinLong <= r <= MaxLong
    ensures 0.0 <= x < MaxLong as real ==> r as real <= x < r as real + 1.0
    ensures MinLong as real < x <= 0.0 ==> r as real - 1.0 < x <= r as real
    ensures x >= MaxLong as real ==> r == MaxLong
    ensures x <= MinLong as real ==> r == MinLong
  {
    if x >= MaxLong as real then MaxLong
    else if x <= MinLong as real then MinLong
    else if x >= 0.0 then x.Floor
    else -((-x).Floor)
  }

  predicate Sorted(s: seq<real>) {
    forall i, j :: 0 <= i < j < |s| ==> s[i] <= s[j]
  }

  lemma SortedCons(a: real, t: seq<real>)
    requires Sorted(t)
    requires |t| > 0 ==> a <= t[0]
    ensures Sorted([a] + t)
  {
    assert forall j :: 0 < j <= |t| ==> ([a] + t)[j] == t[j - 1];
  }

  function Insert(x: real, s: seq<real>): (r: seq<real>)
    requires Sorted(s)
    ensures Sorted(r)
    ensures multiset(r) == multiset(s) + multiset{x}
    ensures |r| == |s| + 1
    ensures r[0] == x || (|s| > 0 && r[0] == s[0])
  {
    if s == [] then [x]
    else if x <= s[0] then
      SortedCons(x, s);
      [x] + s
    else
      assert multiset(s) == multiset{s[0]} + multiset(s[1..]) by {
        assert s == [s[0]] + s[1..];
      }
      assert Sorted(s[1..]) by {
        assert forall j :: 0 <= j < |s| - 1 ==> s[1..][j] == s[j + 1];
      }
      var rest := Insert(x, s[1..]);
      SortedCons(s[0], rest);
      assert multiset([s[0]] + rest) == multiset{s[0]} + multiset(rest);
      [s[0]] + rest
  }

  /** Arrays.sort on a `double[]`: the ascending permutation of `s`. */
  function SortAscending(s: seq<real>): (r: seq<real>)
    ensures Sorted(r)
    ensures |r| == |s|
    ensures multiset(r) == multiset(s)
  {
    if s == [] then []
    else
      assert s == [s[0]] + s[1..];
      Insert(s[0], SortAscending(s[1..]))
  }
}

=== FILE: outcomes.dfy ===
/**
 Failure handling shared by both front-ends. Every error the command-line
 driver can meet ends the invocation with an unchecked exception; the model
 names those exceptions in `Fault` and threads them through `Result` (an
 operation that either produces a value or faults) and `Effect` (an operation
 on the working sketch list that leaves a list behind even when it faults).
 */
module Outcomes {

  datatype Option<+T> = None | Some(value: T)

  /** The unchecked exceptions that end an invocation. */
  datatype Fault =
    | NumberFormat(text: string)    // NumberFormatException raised by a parse of `text`
    | IndexOutOfBounds(index: int)  // an array or list read at `index`, outside its bounds
    | NegativeArraySize(size: int)  // `new double[size]` with `size < 0`
    | IllegalArgument               // IllegalArgumentException raised by the front-end itself
    | LibraryRejected               // an argument the sketch library refuses

  /** Either a value or the fault that ended the computation. */
  datatype Result<+R> = Success(value: R) | Failure(error: Fault) {
    predicate IsFailure() {
      Failure?
    }

    function PropagateFailure<U>(): Result<U>
      requires Failure?
    {
      Failure(error)
    }

    function Extract(): R
      requires Success?
    {
      value
    }
  }

  /** A value the library hands back, or its refusal turned into a fault. */
  function FromLibrary<T>(answer: Option<T>): (r: Result<T>)
    ensures answer.Some? <==> r.Success?
    ensures answer.Some? ==> r.value == answer.value
    ensures answer.None? ==> r.error == LibraryRejected
  {
    match answer
    case Some(v) => Success(v)
    case None => Failure(LibraryRejected)
  }

  /** The state left behind by an operation on the working list, and the
      fault that stopped it, if any. */
  datatype Effect<+S> = Effect(state: S, fault: Option<Fault>)

  /** What a sequence of steps produced, in order, before the first fault,
      and that fault, if any. */
  datatype Partial<+T> = Partial(done: seq<T>, fault: Option<Fault>)

  /** Applies `f` to every entry of `xs` in order; the first fault ends the
      run, keeping what was produced before it and nothing after. */
  function MapUntilFault<A, B>(xs: seq<A>, f: A -> Result<B>): (r: Partial<B>)
    ensures |r.done| <= |xs|
    ensures forall i :: 0 <= i < |r.done| ==> f(xs[i]) == Success(r.done[i])
    ensures r.fault.None? <==> |r.done| == |xs|
    ensures r.fault.Some? ==> f(xs[|r.done|]) == Failure(r.fault.value)
  {
    if xs == [] then Partial([], None)
    else match f(xs[0])
      case Failure(e) => Partial([], Some(e))
      case Success(y) =>
        var rest := MapUntilFault(xs[1..], f);
        assert forall i :: 1 <= i < |xs| ==> xs[i] == xs[1..][i - 1];
        Partial([y] + rest.done, rest.fault)
  }

  /** The entry every query reads: the most recently appended sketch. */
  function Last<T>(list: seq<T>): T
    requires |list| > 0
  {
    list[|list| - 1]
  }

  /** Parses every text with `parse`, in order; the first text `parse`
      rejects ends the loop with a NumberFormatException naming it. */
  function ParseAll<T>(texts: seq<string>, parse: string -> Option<T>): (r: Result<seq<T>>)
    ensures r.Success? <==> forall i :: 0 <= i < |texts| ==> parse(texts[i]).Some?
    ensures r.Success? ==> |r.value| == |texts|
    ensures r.Success? ==> forall i :: 0 <= i < |texts| ==> r.value[i] == parse(texts[i]).value
    ensures r.Failure? ==>
      exists j :: 0 <= j < |texts| && r.error == NumberFormat(texts[j]) && parse(texts[j]).None?
        && forall i :: 0 <= i < j ==> parse(texts[i]).Some?
  {
    if texts == [] then Success([])
    else match parse(texts[0])
      case None => Failure(NumberFormat(texts[0]))
      case Some(v) =>
        var rest :- ParseAll(texts[1..], parse);
        assert forall i :: 1 <= i < |texts| ==> texts[i] == texts[1..][i - 1];
        Success([v] + rest)
  }
}

=== FILE: quantiles_cl.dfy ===
/**
 The quantiles front-end (`ds quant`): builds a quantiles sketch from a
 stream of numeric lines, merges the working list of sketches through a
 union, and answers the query options against the last sketch of the list —
 linear and logarithmic histograms, value at rank, rank at value, and the
 decile listing when no query option is given.

 The sketch algorithm belongs to an external library. A sketch is
 represented here by how it came to be (built, then updated value by value,
 or produced by a union fed with other sketches), and everything the
 library answers about a sketch is a function of a `Library` record handed
 in by the caller.
 */
module QuantilesCL {
  import opened Outcomes
  import opened JavaSemantics
  import opened SplitCalculator
  import opened Selection

  /** DEFAULT_NUM_BINS: the histogram bar count when `-b` is not given. */
  const DefaultNumBins: int := 10

  /** The rank queried for each row of the default listing. */
  const DecileRanks: seq<real> := [0.0, 0.1, 0.2, 0.3, 0.4, 0.5, 0.6, 0.7, 0.8, 0.9, 1.0]

  datatype DoublesSketch =
    | Built(k: Option<int>)                     // DoublesSketch.builder() [setK(k)] .build()
    | Updated(base: DoublesSketch, item: real)  // sketch.update(item)
    | UnionResult(union: DoublesUnion)          // union.getResult()

  datatype DoublesUnion =
    | EmptyUnion(maxK: Option<int>)                    // DoublesUnion.builder() [setMaxK(k)] .build()
    | Fed(prior: DoublesUnion, sketch: DoublesSketch)  // union.update(sketch)

  /** The values a sketch received through update, oldest first. */
  function Received(s: DoublesSketch): seq<real> {
    match s
    case Updated(b, x) => Received(b) + [x]
    case _ => []
  }

  /** The sketch the updates were applied to. */
  function Origin(s: DoublesSketch): DoublesSketch {
    match s
    case Updated(b, _) => Origin(b)
    case _ => s
  }

  /** The sketches a union was fed, oldest first. */
  function Inputs(u: DoublesUnion): seq<DoublesSketch> {
    match u
    case EmptyUnion(_) => []
    case Fed(p, s) => Inputs(p) + [s]
  }

  function UnionMaxK(u: DoublesUnion): Option<int> {
    match u
    case EmptyUnion(k) => k
    case Fed(p, _) => UnionMaxK(p)
  }

  /** `sketch.update(x)` for every x of `items`, in order. */
  function UpdateAll(s: DoublesSketch, items: seq<real>): (r: DoublesSketch)
    ensures Received(r) == Received(s) + items
    ensures Origin(r) == Origin(s)
    decreases |items|
  {
    if items == [] then s
    else
      assert items == [items[0]] + items[1..];
      UpdateAll(Updated(s, items[0]), items[1..])
  }

  /** `union.update(sketch)` for every sketch of `list`, in order. */
  function FeedAll(u: DoublesUnion, list: seq<DoublesSketch>): (r: DoublesUnion)
    ensures Inputs(r) == Inputs(u) + list
    ensures UnionMaxK(r) == UnionMaxK(u)
    decreases |list|
  {
    if list == [] then u
    else
      assert list == [list[0]] + list[1..];
      FeedAll(Fed(u, list[0]), list[1..])
  }

  /** The `-k` option: absent leaves the library default, present is parsed
      with Integer.parseInt. */
  function ResolveK(k: Option<string>): (r: Result<Option<int>>)
    ensures k.None? ==> r == Success(None)
    ensures k.Some? ==> (r.Success? <==> ParseInt(k.value).Some?)
    ensures k.Some? && r.Success? ==> r.value == ParseInt(k.value)
    ensures k.Some? && r.Failure? ==> r.error == NumberFormat(k.value)
  {
    match k
    case None => Success(None)
    case Some(text) =>
      match ParseInt(text)
      case None => Failure(NumberFormat(text))
      case Some(v) => Success(Some(v))
  }

  /** buildSketch: a fresh, empty sketch with the resolved k. */
  function BuildSketch(k: Option<string>): (r: Result<DoublesSketch>)
    ensures r.Success? <==> ResolveK(k).Success?
    ensures r.Failure? ==> r.error == ResolveK(k).error
    ensures r.Success? ==> r.value == Built(ResolveK(k).value) && Received(r.value) == []
  {
    var resolved :- ResolveK(k);
    Success(Built(resolved))
  }

  /** updateSketch: build a fresh sketch, feed it every line parsed as a
      double, and append it to the working list only once every line has
      parsed. Any unparsable line ends the invocation with the list as it was. */
  function UpdateSketch(list: seq<DoublesSketch>, k: Option<string>, lines: seq<string>,
                        parseDouble: string -> Option<real>): (r: Effect<seq<DoublesSketch>>)
    ensures r.fault.None? <==>
      BuildSketch(k).Success? && forall i :: 0 <= i < |lines| ==> parseDouble(lines[i]).Some?
    ensures r.fault.Some? ==> r.state == list
    ensures r.fault.None? ==>
      && |r.state| == |list| + 1
      && r.state[..|list|] == list
      && Origin(Last(r.state)) == BuildSketch(k).value
      && Received(Last(r.state)) == seq(|lines|, i requires 0 <= i < |lines| => parseDouble(lines[i]).value)
    ensures BuildSketch(k).Failure? ==> r.fault == Some(BuildSketch(k).error)
    ensures BuildSketch(k).Success? && r.fault.Some? ==>
      exists j :: 0 <= j < |lines| && r.fault.value == NumberFormat(lines[j]) && parseDouble(lines[j]).None?
        && forall i :: 0 <= i < j ==> parseDouble(lines[i]).Some?
  {
    match BuildSketch(k)
    case Failure(e) => Effect(list, Some(e))
    case Success(built) =>
      match ParseAll(lines, parseDouble)
      case Failure(e) => Effect(list, Some(e))
      case Success(items) =>
        var updated := UpdateAll(built, items);
        assert Received(updated) == items;
        assert (list + [updated])[..|list|] == list;
        Effect(list + [updated], None)
  }

  /** An empty line is not a number, so it aborts the update with no append. */
  lemma EmptyLineAbortsUpdate(list: seq<DoublesSketch>, k: Option<string>, lines: seq<string>,
                              parseDouble: string -> Option<real>)
    requires parseDouble("") == None
    requires "" in lines
    ensures UpdateSketch(list, k, lines, parseDouble).fault.Some?
    ensures UpdateSketch(list, k, lines, parseDouble).state == list
  {
  }

  /** mergeSketches: a union with the resolved maximum k is fed every entry
      of the working list in order, and its result is appended; the earlier
      entries stay as they were and the merged sketch becomes the one queried. */
  function MergeSketches(list: seq<DoublesSketch>, k: Option<string>): (r: Result<seq<DoublesSketch>>)
    ensures r.Success? <==> ResolveK(k).Success?
    ensures r.Failure? ==> r.error == ResolveK(k).error
    ensures r.Success? ==>
      && |r.value| == |list| + 1
      && r.value[..|list|] == list
      && Last(r.value).UnionResult?
      && Inputs(Last(r.value).union) == list
      && UnionMaxK(Last(r.value).union) == ResolveK(k).value
  {
    var maxK :- ResolveK(k);
    var union := FeedAll(EmptyUnion(maxK), list);
    assert (list + [UnionResult(union)])[..|list|] == list;
    Success(list + [UnionResult(union)])
  }

  /** What the library answers about a sketch. A call that the library can
      refuse with an exception answers None. */
  datatype Library = Library(
    minValue: DoublesSketch -> real,                          // getMinValue
    maxValue: DoublesSketch -> real,                          // getMaxValue
    n: DoublesSketch -> int,                                  // getN
    pmf: (DoublesSketch, seq<real>) -> Option<seq<real>>,     // getPMF(splits)
    cdf: (DoublesSketch, seq<real>) -> Option<seq<real>>,     // getCDF(values)
    quantile: (DoublesSketch, real) -> Option<real>)          // getQuantile(rank)

  /** The array lengths the library documents: one mass per bin, one more
      than the split points given. */
  ghost predicate DocumentedLengths(lib: Library) {
    && (forall s, xs :: lib.pmf(s, xs).Some? ==> |lib.pmf(s, xs).value| == |xs| + 1)
    && (forall s, xs :: lib.cdf(s, xs).Some? ==> |lib.cdf(s, xs).value| == |xs| + 1)
  }

  /** Everything outside this front-end that a query relies on: the sketch
      library, log10/pow10, and Double.parseDouble. */
  datatype Env = Env(lib: Library, math: RealMath, parseDouble: string -> Option<real>)

  /** The options of one invocation. File options carry the tokens the
      query file reader produced. */
  datatype Flags = Flags(
    k: Option<string>,               // -k
    histogram: bool,                 // -h
    logHistogram: Option<string>,    // -lh ZEROSUB
    bins: Option<string>,            // -b
    ranks: Option<seq<string>>,      // -r DOUBLES
    rankFile: Option<seq<string>>,   // -R FILE
    values: Option<seq<string>>,     // -v DOUBLES
    valueFile: Option<seq<string>>)  // -V FILE

  datatype Query =
    | LinearHistogram(bins: Option<string>)
    | LogHistogram(zeroSub: string, bins: Option<string>)
    | RankToValue(rankTexts: seq<string>)
    | RankToValueFile(rankTexts: seq<string>)
    | ValueToRank(valueTexts: seq<string>)
    | ValueToRankFile(valueTexts: seq<string>)
    | Deciles

  /** The place of each query in the fixed order the options are checked in. */
  function Position(q: Query): nat {
    match q
    case LinearHistogram(_) => 0
    case LogHistogram(_, _) => 1
    case RankToValue(_) => 2
    case RankToValueFile(_) => 3
    case ValueToRank(_) => 4
    case ValueToRankFile(_) => 5
    case Deciles => 6
  }

  predicate AnyQueryFlag(f: Flags) {
    f.histogram || f.logHistogram.Some? || f.ranks.Some? || f.rankFile.Some?
    || f.values.Some? || f.valueFile.Some?
  }

  /** Whether the options ask for query `q`. */
  predicate Requested(f: Flags, q: Query) {
    match q
    case LinearHistogram(b) => f.histogram && b == f.bins
    case LogHistogram(z, b) => f.logHistogram == Some(z) && b == f.bins
    case RankToValue(rs) => f.ranks == Some(rs)
    case RankToValueFile(rs) => f.rankFile == Some(rs)
    case ValueToRank(vs) => f.values == Some(vs)
    case ValueToRankFile(vs) => f.valueFile == Some(vs)
    case Deciles => !AnyQueryFlag(f)
  }

  /** The number of places in the fixed order. */
  const SlotCount: nat := 7

  /** The query at place `p` of the fixed order when its option was chosen. */
  function Slot(f: Flags, p: nat): (r: Option<Query>)
    ensures r.Some? ==> Position(r.value) == p
  {
    if p == 0 then (if f.histogram then Some(LinearHistogram(f.bins)) else None)
    else if p == 1 then (if f.logHistogram.Some? then Some(LogHistogram(f.logHistogram.value, f.bins)) else None)
    else if p == 2 then (if f.ranks.Some? then Some(RankToValue(f.ranks.value)) else None)
    else if p == 3 then (if f.rankFile.Some? then Some(RankToValueFile(f.rankFile.value)) else None)
    else if p == 4 then (if f.values.Some? then Some(ValueToRank(f.values.value)) else None)
    else if p == 5 then (if f.valueFile.Some? then Some(ValueToRankFile(f.valueFile.value)) else None)
    else if p == 6 then (if !AnyQueryFlag(f) then Some(Deciles) else None)
    else None
  }

  /** A query sits in its own place exactly when the options ask for it. */
  lemma SlotIffRequested(f: Flags, q: Query)
    ensures Slot(f, Position(q)) == Some(q) <==> Requested(f, q)
  {
  }

  /** The places of the fixed order, as a slot function. */
  function SlotOf(f: Flags): (slot: nat -> Option<Query>)
    ensures Places(slot, Position)
    ensures forall p: nat :: slot(p) == Slot(f, p)
  {
    (p: nat) => Slot(f, p)
  }

  lemma ChosenIffRequested(f: Flags, q: Query)
    ensures q in Chosen(SlotOf(f), Position, 0, SlotCount) <==> Requested(f, q)
  {
    ChosenMembers(SlotOf(f), Position, 0, SlotCount, q);
    SlotIffRequested(f, q);
  }

  /** The queries one invocation runs: every option is checked on its own, in
      a fixed order, and the deciles run exactly when no option was chosen. */
  function Selected(f: Flags): (qs: seq<Query>)
    ensures InOrder(qs, Position)
    ensures forall q :: q in qs <==> Requested(f, q)
    ensures !AnyQueryFlag(f) <==> qs == [Deciles]
  {
    var qs := Chosen(SlotOf(f), Position, 0, SlotCount);
    assert forall q :: q in qs <==> Requested(f, q) by {
      forall q
        ensures q in qs <==> Requested(f, q)
      {
        ChosenIffRequested(f, q);
      }
    }
    assert !AnyQueryFlag(f) ==> qs == [Deciles] by {
      if !AnyQueryFlag(f) {
        assert Deciles in qs;
        forall i | 0 <= i < |qs|
          ensures qs[i] == Deciles
        {
          assert Requested(f, qs[i]);
        }
        AllSameIsSingle(qs, Position, Deciles);
      }
    }
    assert qs == [Deciles] ==> Requested(f, Deciles);
    qs
  }

  datatype Row =
    | Bar(boundary: real, count: int)        // histogram row: "Value<TAB>Freq"
    | ValueAt(rankText: string, value: real) // rank-to-value row: "Rank<TAB>Value"
    | RankOf(value: real, rank: real)        // value-to-rank row: "Value<TAB>Rank"
    | Decile(rank: real, value: real)        // default listing row

  /** The header and rows one query prints. */
  datatype Block = Block(query: Query, rows: seq<Row>)

  /** The blocks printed before the invocation ended, and the fault that
      ended it early, if any. */
  type Report = Partial<Block>

  /** The `-b` option turned into a split-point count: `b - 1` in Java `int`
      arithmetic, DEFAULT_NUM_BINS - 1 when absent. */
  function SplitCount(bins: Option<string>): (r: Result<int>)
    ensures bins.None? ==> r == Success(DefaultNumBins - 1)
    ensures bins.Some? ==> (r.Success? <==> ParseInt(bins.value).Some?)
    ensures bins.Some? && r.Failure? ==> r.error == NumberFormat(bins.value)
    ensures bins.Some? && r.Success? && ParseInt(bins.value).value > MinInt ==>
      r.value == ParseInt(bins.value).value - 1
    ensures bins.Some? && r.Success? ==>
      (r.value < 0 <==> MinInt < ParseInt(bins.value).value <= 0)
  {
    match bins
    case None => Success(DefaultNumBins - 1)
    case Some(text) =>
      match ParseInt(text)
      case None => Failure(NumberFormat(text))
      case Some(b) => Success(WrapInt(b - 1))
  }

  /** `-b 30` asks for 30 bars, so 29 split points. */
  lemma ThirtyBinsTwentyNineSplits()
    ensures SplitCount(Some("30")) == Success(29)
  {
    assert DigitsValue("3") == 3;
    assert DigitsValue("30") == 30 by {
      assert "30"[..1] == "3";
    }
  }

  /** The count a histogram row shows for a bin of probability mass `p` in a
      stream of `n` values: `(long)(p * n)`. */
  function BarCount(p: real, n: int): int {
    LongCast(Mass(p, n))
  }

  /** The expected number of values in a bin of probability mass `p`, in a
      stream of `n` values. */
  function Mass(p: real, n: int): real {
    p * n as real
  }

  /** The histogram rows: the sketch minimum with the mass below the first
      split, then each split point with the mass of the bin it opens; every
      mass is scaled by the stream length and cast to `long`. Reading a mass
      past the end of the PMF array faults at the first missing index. */
  function HistogramRows(min: real, n: int, splits: seq<real>, pmf: seq<real>): (r: Result<seq<Row>>)
    ensures r.Success? <==> |pmf| >= |splits| + 1
    ensures r.Failure? ==> r.error == IndexOutOfBounds(|pmf|)
    ensures r.Success? ==>
      && |r.value| == |splits| + 1
      && r.value[0] == Bar(min, BarCount(pmf[0], n))
      && forall i :: 1 <= i <= |splits| ==> r.value[i] == Bar(splits[i - 1], BarCount(pmf[i], n))
    ensures r.Success? ==>
      forall i :: 0 <= i < |r.value| ==> r.value[i].Bar? && r.value[i].count == BarCount(pmf[i], n)
  {
    if |pmf| < |splits| + 1 then Failure(IndexOutOfBounds(|pmf|))
    else
      Success(seq(|splits| + 1, i requires 0 <= i <= |splits| =>
        if i == 0 then Bar(min, BarCount(pmf[0], n))
        else Bar(splits[i - 1], BarCount(pmf[i], n))))
  }

  /** `-h`: a histogram over split points spread evenly between the sketch
      minimum and maximum. */
  function LinearHistogramQuery(s: DoublesSketch, bins: Option<string>, lib: Library): (r: Result<Block>)
    ensures SplitCount(bins).Failure? ==> r == Failure(SplitCount(bins).error)
    ensures SplitCount(bins).Success? && SplitCount(bins).value < 0 ==>
      r == Failure(NegativeArraySize(SplitCount(bins).value))
    ensures r.Success? ==>
      var count := SplitCount(bins).value;
      var splits := SplitPoints(lib.minValue(s), lib.maxValue(s), count);
      && SplitCount(bins).Success? && 0 <= count
      && lib.pmf(s, splits).Some?
      && var pmf := lib.pmf(s, splits).value;
      && |pmf| >= count + 1
      && r.value.query == LinearHistogram(bins)
      && |r.value.rows| == count + 1
      && r.value.rows[0] == Bar(lib.minValue(s), BarCount(pmf[0], lib.n(s)))
      && forall i :: 1 <= i <= count ==>
        r.value.rows[i] == Bar(splits[i - 1], BarCount(pmf[i], lib.n(s)))
    ensures SplitCount(bins).Success? && 0 <= SplitCount(bins).value ==>
      var count := SplitCount(bins).value;
      var answer := lib.pmf(s, SplitPoints(lib.minValue(s), lib.maxValue(s), count));
      && (answer.None? ==> r == Failure(LibraryRejected))
      && (answer.Some? && |answer.value| < count + 1 ==> r == Failure(IndexOutOfBounds(|answer.value|)))
    ensures r.Failure? ==> r.error != IllegalArgument
    ensures DocumentedLengths(lib) && SplitCount(bins).Success? && 0 <= SplitCount(bins).value
      && lib.pmf(s, SplitPoints(lib.minValue(s), lib.maxValue(s), SplitCount(bins).value)).Some?
      ==> r.Success?
  {
    var count :- SplitCount(bins);
    var splits :- Splits(lib.minValue(s), lib.maxValue(s), count);
    var pmf :- FromLibrary(lib.pmf(s, splits));
    var rows :- HistogramRows(lib.minValue(s), lib.n(s), splits, pmf);
    Success(Block(LinearHistogram(bins), rows))
  }

  /** `-lh ZEROSUB`: a histogram over split points spread evenly in log10
      space. The first row still shows the sketch's own minimum, not the zero
      substitute. */
  function LogHistogramQuery(s: DoublesSketch, zeroSub: string, bins: Option<string>, env: Env): (r: Result<Block>)
    ensures env.parseDouble(zeroSub).None? ==> r == Failure(NumberFormat(zeroSub))
    ensures env.parseDouble(zeroSub).Some? && SplitCount(bins).Failure? ==> r == Failure(SplitCount(bins).error)
    ensures env.parseDouble(zeroSub).Some? && SplitCount(bins).Success? ==>
      var lo := ZeroSubstituted(env.lib.minValue(s), env.parseDouble(zeroSub).value);
      && (lo < 0.0 ==> r == Failure(IllegalArgument))
      && (0.0 <= lo && SplitCount(bins).value < 0 ==> r == Failure(NegativeArraySize(SplitCount(bins).value)))
    ensures r.Success? ==>
      var count := SplitCount(bins).value;
      && env.parseDouble(zeroSub).Some? && SplitCount(bins).Success? && 0 <= count
      && r.value.query == LogHistogram(zeroSub, bins)
      && |r.value.rows| == count + 1
      && var splits := LogSplits(env.lib.minValue(s), env.lib.maxValue(s), count, env.parseDouble(zeroSub).value, env.math);
      && splits.Success?
      && env.lib.pmf(s, splits.value).Some?
      && var pmf := env.lib.pmf(s, splits.value).value;
      && |pmf| >= count + 1
      && r.value.rows[0] == Bar(env.lib.minValue(s), BarCount(pmf[0], env.lib.n(s)))
      && forall i :: 1 <= i <= count ==>
        r.value.rows[i] == Bar(splits.value[i - 1], BarCount(pmf[i], env.lib.n(s)))
    ensures (env.parseDouble(zeroSub).Some? && SplitCount(bins).Success? && 0 <= SplitCount(bins).value
             && 0.0 <= ZeroSubstituted(env.lib.minValue(s), env.parseDouble(zeroSub).value)) ==>
      var count := SplitCount(bins).value;
      var answer := env.lib.pmf(s, LogSplits(env.lib.minValue(s), env.lib.maxValue(s), count,
                                             env.parseDouble(zeroSub).value, env.math).value);
      && (answer.None? ==> r == Failure(LibraryRejected))
      && (answer.Some? && |answer.value| < count + 1 ==> r == Failure(IndexOutOfBounds(|answer.value|)))
    ensures r == Failure(IllegalArgument) ==>
      env.parseDouble(zeroSub).Some? && ZeroSubstituted(env.lib.minValue(s), env.parseDouble(zeroSub).value) < 0.0
    ensures DocumentedLengths(env.lib) && env.parseDouble(zeroSub).Some?
      && SplitCount(bins).Success? && 0 <= SplitCount(bins).value
      && 0.0 <= ZeroSubstituted(env.lib.minValue(s), env.parseDouble(zeroSub).value)
      && env.lib.pmf(s, LogSplits(env.lib.minValue(s), env.lib.maxValue(s), SplitCount(bins).value,
                                  env.parseDouble(zeroSub).value, env.math).value).Some?
      ==> r.Success?
  {
    var lib := env.lib;
    var z :- FromParse(zeroSub, env.parseDouble);
    var count :- SplitCount(bins);
    var splits :- LogSplits(lib.minValue(s), lib.maxValue(s), count, z, env.math);
    var pmf :- FromLibrary(lib.pmf(s, splits));
    var rows :- HistogramRows(lib.minValue(s), lib.n(s), splits, pmf);
    Success(Block(LogHistogram(zeroSub, bins), rows))
  }

  /** With a monotone log10/pow10 pair and a positive substituted range, the
      rows of `-lh` show strictly increasing boundaries: the sketch minimum
      first (a zero minimum lies below its positive substitute), then the
      log boundaries. */
  lemma LogHistogramRowsIncrease(s: DoublesSketch, zeroSub: string, bins: Option<string>, env: Env)
    requires Log10Increasing(env.math) && Pow10Increasing(env.math) && Pow10UndoesLog10(env.math)
    requires env.parseDouble(zeroSub).Some?
    requires 0.0 < ZeroSubstituted(env.lib.minValue(s), env.parseDouble(zeroSub).value) < env.lib.maxValue(s)
    requires LogHistogramQuery(s, zeroSub, bins, env).Success?
    ensures var rows := LogHistogramQuery(s, zeroSub, bins, env).value.rows;
      forall i, j :: 0 <= i < j < |rows| ==> rows[i].boundary < rows[j].boundary
  {
    var min := env.lib.minValue(s);
    var z := env.parseDouble(zeroSub).value;
    var count := SplitCount(bins).value;
    var rows := LogHistogramQuery(s, zeroSub, bins, env).value.rows;
    var splits := LogSplits(min, env.lib.maxValue(s), count, z, env.math).value;
    LogSplitsIncreaseInside(min, env.lib.maxValue(s), count, z, env.math);
    assert min <= ZeroSubstituted(min, z);
    forall i, j | 0 <= i < j < |rows|
      ensures rows[i].boundary < rows[j].boundary
    {
      assert rows[j].boundary == splits[j - 1];
      if i > 0 {
        assert rows[i].boundary == splits[i - 1];
      }
    }
  }

  /** Double.parseDouble of one text; a rejection is a NumberFormatException. */
  function FromParse(text: string, parseDouble: string -> Option<real>): (r: Result<real>)
    ensures r.Success? <==> parseDouble(text).Some?
    ensures r.Success? ==> r.value == parseDouble(text).value
    ensures r.Failure? ==> r.error == NumberFormat(text)
  {
    match parseDouble(text)
    case None => Failure(NumberFormat(text))
    case Some(x) => Success(x)
  }

  /** The ranks before index `j` parse and are answered; rank `j` either
      does not parse (a NumberFormatException naming it) or parses and is
      refused by the library. */
  predicate RankFailsAt(s: DoublesSketch, texts: seq<string>, env: Env, j: nat, e: Fault)
    requires j < |texts|
  {
    && (forall i :: 0 <= i < j ==>
          env.parseDouble(texts[i]).Some? && env.lib.quantile(s, env.parseDouble(texts[i]).value).Some?)
    && match env.parseDouble(texts[j])
       case None => e == NumberFormat(texts[j])
       case Some(rank) => env.lib.quantile(s, rank).None? && e == LibraryRejected
  }

  /** `-r` / `-R`: for each rank text in the order given, parse it and ask the
      sketch for the value at that rank; the row repeats the text as given. */
  function RankRows(s: DoublesSketch, texts: seq<string>, env: Env): (r: Result<seq<Row>>)
    ensures r.Success? <==> forall i :: 0 <= i < |texts| ==>
      env.parseDouble(texts[i]).Some? && env.lib.quantile(s, env.parseDouble(texts[i]).value).Some?
    ensures r.Success? ==> |r.value| == |texts| && forall i :: 0 <= i < |texts| ==>
      r.value[i] == ValueAt(texts[i], env.lib.quantile(s, env.parseDouble(texts[i]).value).value)
    ensures r.Failure? ==> exists j :: 0 <= j < |texts| && RankFailsAt(s, texts, env, j, r.error)
  {
    if texts == [] then Success([])
    else
      assert RankFailsAt(s, texts, env, 0, NumberFormat(texts[0])) || env.parseDouble(texts[0]).Some?;
      var rank :- FromParse(texts[0], env.parseDouble);
      assert RankFailsAt(s, texts, env, 0, LibraryRejected) || env.lib.quantile(s, rank).Some?;
      var value :- FromLibrary(env.lib.quantile(s, rank));
      assert forall i :: 1 <= i < |texts| ==> texts[i] == texts[1..][i - 1];
      match RankRows(s, texts[1..], env)
      case Failure(e) =>
        assert exists j :: 0 <= j < |texts| && RankFailsAt(s, texts, env, j, e) by {
          var j :| 0 <= j < |texts| - 1 && RankFailsAt(s, texts[1..], env, j, e);
          RankFailsShift(s, texts, env, j, e);
        }
        Failure(e)
      case Success(rest) => Success([ValueAt(texts[0], value)] + rest)
  }

  /** A failure at index `j` of the later ranks is a failure at `j + 1` once
      the first rank parsed and was answered. */
  lemma RankFailsShift(s: DoublesSketch, texts: seq<string>, env: Env, j: nat, e: Fault)
    requires |texts| > 0 && j < |texts| - 1
    requires env.parseDouble(texts[0]).Some? && env.lib.quantile(s, env.parseDouble(texts[0]).value).Some?
    requires RankFailsAt(s, texts[1..], env, j, e)
    ensures RankFailsAt(s, texts, env, j + 1, e)
  {
    assert forall i :: 1 <= i < |texts| ==> texts[i] == texts[1..][i - 1];
  }

  /** The values the rows of a rank-to-value or value-to-rank block show. */
  function ValuesOf(rows: seq<Row>): (vs: seq<real>)
    requires forall i :: 0 <= i < |rows| ==> !rows[i].Bar?
    ensures |vs| == |rows|
    ensures forall i :: 0 <= i < |rows| ==> vs[i] == rows[i].value
  {
    seq(|rows|, i requires 0 <= i < |rows| => rows[i].value)
  }

  /** Each value beside the CDF entry at the same index. */
  function PairRanks(values: seq<real>, cdf: seq<real>): (rows: seq<Row>)
    requires |cdf| >= |values|
    ensures |rows| == |values|
    ensures forall i :: 0 <= i < |values| ==> rows[i] == RankOf(values[i], cdf[i])
    ensures ValuesOf(rows) == values
  {
    var rows := seq(|values|, i requires 0 <= i < |values| => RankOf(values[i], cdf[i]));
    assert ValuesOf(rows) == values;
    rows
  }

  /** `-v` and `-V`: parse every value, sort them ascending when they came
      from the command line (`-v`) but keep the file order (`-V`), ask the
      sketch for the CDF at those values, and print each value with its rank. */
  function ValueRows(s: DoublesSketch, texts: seq<string>, sortFirst: bool, env: Env): (r: Result<seq<Row>>)
    ensures r.Success? ==> ParseAll(texts, env.parseDouble).Success?
    ensures ParseAll(texts, env.parseDouble).Failure? ==> r == Failure(ParseAll(texts, env.parseDouble).error)
    ensures r.Success? ==>
      var parsed := ParseAll(texts, env.parseDouble).value;
      var asked := if sortFirst then SortAscending(parsed) else parsed;
      && env.lib.cdf(s, asked).Some?
      && |env.lib.cdf(s, asked).value| >= |texts|
      && |r.value| == |texts|
      && forall i :: 0 <= i < |texts| ==> r.value[i] == RankOf(asked[i], env.lib.cdf(s, asked).value[i])
    ensures r.Success? && sortFirst ==>
      && Sorted(ValuesOf(r.value))
      && multiset(ValuesOf(r.value)) == multiset(ParseAll(texts, env.parseDouble).value)
    ensures r.Success? && !sortFirst ==>
      forall i :: 0 <= i < |texts| ==> r.value[i].value == env.parseDouble(texts[i]).value
    ensures DocumentedLengths(env.lib) && ParseAll(texts, env.parseDouble).Success? ==>
      var parsed := ParseAll(texts, env.parseDouble).value;
      var asked := if sortFirst then SortAscending(parsed) else parsed;
      (r.Success? <==> env.lib.cdf(s, asked).Some?)
    ensures ParseAll(texts, env.parseDouble).Success? ==>
      var parsed := ParseAll(texts, env.parseDouble).value;
      var answer := env.lib.cdf(s, if sortFirst then SortAscending(parsed) else parsed);
      && (answer.None? ==> r == Failure(LibraryRejected))
      && (answer.Some? && |answer.value| < |texts| ==> r == Failure(IndexOutOfBounds(|answer.value|)))
  {
    var parsed :- ParseAll(texts, env.parseDouble);
    var asked := if sortFirst then SortAscending(parsed) else parsed;
    var cdf :- FromLibrary(env.lib.cdf(s, asked));
    if |cdf| < |asked| then Failure(IndexOutOfBounds(|cdf|))
    else Success(PairRanks(asked, cdf))
  }

  /** The default listing: the value at each of the ranks 0.0, 0.1, ..., 1.0. */
  function DecileRows(s: DoublesSketch, ranks: seq<real>, lib: Library): (r: Result<seq<Row>>)
    ensures r.Success? <==> forall i :: 0 <= i < |ranks| ==> lib.quantile(s, ranks[i]).Some?
    ensures r.Failure? ==> r.error == LibraryRejected
    ensures r.Success? ==> |r.value| == |ranks| && forall i :: 0 <= i < |ranks| ==>
      r.value[i] == Decile(ranks[i], lib.quantile(s, ranks[i]).value)
  {
    if ranks == [] then Success([])
    else
      var value :- FromLibrary(lib.quantile(s, ranks[0]));
      var rest :- DecileRows(s, ranks[1..], lib);
      assert forall i :: 1 <= i < |ranks| ==> ranks[i] == ranks[1..][i - 1];
      Success([Decile(ranks[0], value)] + rest)
  }

  /** The default listing has the eleven ranks i/10 for i = 0..10, in order. */
  lemma DecilesAreTenths()
    ensures |DecileRanks| == 11
    ensures forall i :: 0 <= i < 11 ==> DecileRanks[i] == (i as real) / 10.0
  {
  }

  function WithQuery(q: Query, rows: Result<seq<Row>>): (r: Result<Block>)
    ensures r.Success? <==> rows.Success?
    ensures r.Success? ==> r.value == Block(q, rows.value)
    ensures r.Failure? ==> r.error == rows.error
  {
    var rs :- rows;
    Success(Block(q, rs))
  }

  /** A block result that carries exactly the rows, or the fault, of `rows`. */
  predicate Carries(r: Result<Block>, rows: Result<seq<Row>>) {
    && (r.Success? <==> rows.Success?)
    && (r.Success? ==> r.value.rows == rows.value)
    && (r.Failure? ==> r.error == rows.error)
  }

  /** Runs one query against sketch `s`: `-h` and `-lh` print their
      histograms, `-r` and `-R` the same rank rows whether the ranks came from
      the command line or a file, `-v` the value rows sorted first, `-V` the
      value rows in file order, and no option the eleven deciles. */
  function RunQuery(q: Query, s: DoublesSketch, env: Env): (r: Result<Block>)
    ensures r.Success? ==> r.value.query == q
    ensures q.LinearHistogram? ==> r == LinearHistogramQuery(s, q.bins, env.lib)
    ensures q.LogHistogram? ==> r == LogHistogramQuery(s, q.zeroSub, q.bins, env)
    ensures q.RankToValue? || q.RankToValueFile? ==> Carries(r, RankRows(s, q.rankTexts, env))
    ensures q.ValueToRank? ==> Carries(r, ValueRows(s, q.valueTexts, true, env))
    ensures q.ValueToRankFile? ==> Carries(r, ValueRows(s, q.valueTexts, false, env))
    ensures q.Deciles? ==> Carries(r, DecileRows(s, DecileRanks, env.lib))
    ensures q.Deciles? && r.Success? ==> |r.value.rows| == 11
  {
    match q
    case LinearHistogram(bins) => LinearHistogramQuery(s, bins, env.lib)
    case LogHistogram(zeroSub, bins) => LogHistogramQuery(s, zeroSub, bins, env)
    case RankToValue(texts) => WithQuery(q, RankRows(s, texts, env))
    case RankToValueFile(texts) => WithQuery(q, RankRows(s, texts, env))
    case ValueToRank(texts) => WithQuery(q, ValueRows(s, texts, true, env))
    case ValueToRankFile(texts) => WithQuery(q, ValueRows(s, texts, false, env))
    case Deciles => WithQuery(q, DecileRows(s, DecileRanks, env.lib))
  }

  /** queryCurrentSketch: nothing when the working list is empty; otherwise
      the selected queries against the last sketch of the list, and only it. */
  function QueryCurrentSketch(list: seq<DoublesSketch>, f: Flags, env: Env): (r: Report)
    ensures |list| == 0 ==> r == Partial([], None)
    ensures |list| > 0 ==>
      && |r.done| <= |Selected(f)|
      && (forall i :: 0 <= i < |r.done| ==>
            r.done[i].query == Selected(f)[i] && RunQuery(Selected(f)[i], Last(list), env) == Success(r.done[i]))
      && (r.fault.None? ==> |r.done| == |Selected(f)|)
      && (r.fault.Some? ==> |r.done| < |Selected(f)| && RunQuery(Selected(f)[|r.done|], Last(list), env) == Failure(r.fault.value))
  {
    if |list| == 0 then Partial([], None)
    else
      var s := Last(list);
      var qs := Selected(f);
      var run := q => RunQuery(q, s, env);
      var r := MapUntilFault(qs, run);
      assert forall q :: run(q) == RunQuery(q, s, env);
      r
  }

  /** The query reads the last sketch only: lists that end in the same
      sketch give the same report. */
  lemma QueryReadsOnlyLast(list: seq<DoublesSketch>, other: seq<DoublesSketch>, f: Flags, env: Env)
    requires |list| > 0 && |other| > 0 && Last(list) == Last(other)
    ensures QueryCurrentSketch(list, f, env) == QueryCurrentSketch(other, f, env)
  {
  }

  /** After a merge, the queries read the merged sketch. */
  lemma QueryAfterMergeReadsUnion(list: seq<DoublesSketch>, k: Option<string>, f: Flags, env: Env)
    requires MergeSketches(list, k).Success?
    ensures var merged := MergeSketches(list, k).value;
      QueryCurrentSketch(merged, f, env) == QueryCurrentSketch([UnionResult(FeedAll(EmptyUnion(ResolveK(k).value), list))], f, env)
  {
  }

  function SumReals(xs: seq<real>): real {
    if xs == [] then 0.0 else xs[0] + SumReals(xs[1..])
  }

  function SumCounts(rows: seq<Row>): int {
    if rows == [] then 0
    else (if rows[0].Bar? then rows[0].count else 0) + SumCounts(rows[1..])
  }

  /** Casting each mass to `long` loses less than one per row: the counts
      add up to the total mass, short by less than the number of rows. */
  lemma {:induction false} CastSumWithin(rows: seq<Row>, xs: seq<real>)
    requires |rows| == |xs|
    requires forall i :: 0 <= i < |xs| ==> 0.0 <= xs[i] < MaxLong as real
    requires forall i :: 0 <= i < |rows| ==> rows[i].Bar? && rows[i].count == LongCast(xs[i])
    ensures SumReals(xs) - (|xs| as real) <= SumCounts(rows) as real <= SumReals(xs)
    ensures |xs| > 0 ==> SumReals(xs) - (|xs| as real) < SumCounts(rows) as real
  {
    if rows != [] {
      CastSumWithin(rows[1..], xs[1..]);
    }
  }

  /** The mass of every bin times the stream length. */
  function Masses(pmf: seq<real>, n: int): (r: seq<real>)
    ensures |r| == |pmf|
    ensures forall i :: 0 <= i < |pmf| ==> r[i] == Mass(pmf[i], n)
  {
    if pmf == [] then [] else [Mass(pmf[0], n)] + Masses(pmf[1..], n)
  }

  lemma {:induction false} SumMasses(pmf: seq<real>, n: int)
    ensures SumReals(Masses(pmf, n)) == SumReals(pmf) * n as real
  {
    if pmf != [] {
      SumMasses(pmf[1..], n);
    }
  }

  /** A probability mass times a stream length lies between 0 and the length. */
  lemma MassWithinLength(p: real, n: int)
    requires 0.0 <= p <= 1.0 && 0 <= n
    ensures 0.0 <= Mass(p, n) <= n as real
  {
    var x := p * n as real;
    assert 0.0 <= x <= n as real;
  }

  /** Each histogram row counts its bin's mass times the stream length, cast
      to `long`. */
  lemma {:induction false} RowsCastMasses(min: real, n: int, splits: seq<real>, pmf: seq<real>)
    requires |pmf| == |splits| + 1
    requires 0 <= n < MaxLong
    requires forall i :: 0 <= i < |pmf| ==> 0.0 <= pmf[i] <= 1.0
    ensures HistogramRows(min, n, splits, pmf).Success?
    ensures var rows := HistogramRows(min, n, splits, pmf).value;
      var xs := Masses(pmf, n);
      && |rows| == |xs|
      && (forall i :: 0 <= i < |xs| ==> 0.0 <= xs[i] < MaxLong as real)
      && forall i :: 0 <= i < |rows| ==> rows[i].Bar? && rows[i].count == LongCast(xs[i])
  {
    var xs := Masses(pmf, n);
    forall i | 0 <= i < |xs|
      ensures 0.0 <= xs[i] < MaxLong as real
    {
      MassWithinLength(pmf[i], n);
    }
  }

  /** When the PMF is a probability distribution, the histogram counts add up
      to the stream length, short by less than one per bar (the casts
      truncate). */
  lemma {:induction false} HistogramCountsSumToStreamLength(min: real, n: int, splits: seq<real>, pmf: seq<real>)
    requires |pmf| == |splits| + 1
    requires 0 <= n < MaxLong
    requires forall i :: 0 <= i < |pmf| ==> 0.0 <= pmf[i] <= 1.0
    requires SumReals(pmf) == 1.0
    ensures HistogramRows(min, n, splits, pmf).Success?
    ensures var rows := HistogramRows(min, n, splits, pmf).value;
      n - |pmf| < SumCounts(rows) <= n
  {
    RowsCastMasses(min, n, splits, pmf);
    var rows := HistogramRows(min, n, splits, pmf).value;
    var xs := Masses(pmf, n);
    CastSumWithin(rows, xs);
    SumMasses(pmf, n);
  }
}

=== FILE: selection.dfy ===
/**
 How both front-ends pick what to print: a fixed row of places, each holding
 the output of one option when that option was chosen. Every option is
 checked on its own (`if (cmd.hasOption(..))` one after another), so the
 output lists the chosen places in the fixed order.
 */
module Selection {
  import opened Outcomes

  /** `xs` lists its entries at strictly increasing places (so none twice). */
  predicate InOrder<T>(xs: seq<T>, place: T -> nat) {
    forall i, j :: 0 <= i < j < |xs| ==> place(xs[i]) < place(xs[j])
  }

  /** Whatever `slot` offers at place `p` belongs at place `p`. */
  ghost predicate Places<T>(slot: nat -> Option<T>, place: T -> nat) {
    forall p: nat :: slot(p).Some? ==> place(slot(p).value) == p
  }

  /** The entries `slot` offers at places `p` up to `count`, in order. */
  function Chosen<T>(slot: nat -> Option<T>, place: T -> nat, p: nat, count: nat): (xs: seq<T>)
    requires Places(slot, place)
    ensures InOrder(xs, place)
    ensures forall i :: 0 <= i < |xs| ==> p <= place(xs[i]) < count
    decreases count - p
  {
    if p >= count then []
    else
      var rest := Chosen(slot, place, p + 1, count);
      match slot(p)
      case None => rest
      case Some(x) => [x] + rest
  }

  /** An entry is chosen exactly when its own place offers it. */
  lemma {:induction false} ChosenMembers<T>(slot: nat -> Option<T>, place: T -> nat, p: nat, count: nat, x: T)
    requires Places(slot, place)
    requires place(x) < count
    ensures x in Chosen(slot, place, p, count) <==> p <= place(x) && slot(place(x)) == Some(x)
    decreases count - p
  {
    if p < count {
      ChosenMembers(slot, place, p + 1, count, x);
      var rest := Chosen(slot, place, p + 1, count);
      var here := slot(p);
      var front := if here.Some? then [here.value] else [];
      assert Chosen(slot, place, p, count) == front + rest;
      assert x in front <==> here == Some(x);
      assert here == Some(x) ==> place(x) == p;
      assert place(x) == p && slot(place(x)) == Some(x) ==> x in front;
    }
  }

  /** Places strictly increase along the list, so a list whose entries are
      all `x` holds it at most once. */
  lemma AllSameIsSingle<T>(xs: seq<T>, place: T -> nat, x: T)
    requires InOrder(xs, place)
    requires x in xs
    requires forall i :: 0 <= i < |xs| ==> xs[i] == x
    ensures xs == [x]
  {
    FirstTwoDiffer(xs, place);
  }

  lemma FirstTwoDiffer<T>(xs: seq<T>, place: T -> nat)
    ensures InOrder(xs, place) && |xs| >= 2 ==> xs[0] != xs[1]
  {
  }
}

=== FILE: splits.dfy ===
/**
 The split-point calculator of the quantiles front-end: `n` histogram
 boundaries spaced evenly strictly between a minimum and a maximum, in linear
 space (getSplits) or in base-10 logarithmic space (getLogSplits). Doubles
 are idealised as reals; log10 and pow10 are supplied by the caller.
 */
module SplitCalculator {
  import opened Outcomes

  /** The distance between neighbouring boundaries when `n` of them split [min, max]. */
  function Delta(min: real, max: real, n: nat): real {
    (max - min) / ((n + 1) as real)
  }

  /** The boundary formula of getSplits, for a non-negative count. */
  function SplitPoints(min: real, max: real, n: nat): (r: seq<real>)
    ensures |r| == n
  {
    seq(n, i requires 0 <= i < n => min + Delta(min, max, n) * ((i + 1) as real))
  }

  /** `s` places |s| boundaries at equal distances, the first one step above
      `min`, the last one step below `max`. */
  predicate EvenlySpaced(min: real, max: real, s: seq<real>) {
    var d := Delta(min, max, |s|);
    && (|s| > 0 ==> s[0] == min + d && s[|s| - 1] == max - d)
    && forall i :: 0 <= i < |s| - 1 ==> s[i + 1] == s[i] + d
  }

  /** getSplits: `new double[n]` faults for a negative count; otherwise the
      evenly spaced interior boundaries. */
  function Splits(min: real, max: real, n: int): (r: Result<seq<real>>)
    ensures r.Failure? <==> n < 0
    ensures r.Failure? ==> r.error == NegativeArraySize(n)
    ensures r.Success? ==> |r.value| == n && EvenlySpaced(min, max, r.value)
  {
    if n < 0 then Failure(NegativeArraySize(n))
    else
      SplitPointsEvenlySpaced(min, max, n);
      Success(SplitPoints(min, max, n))
  }

  lemma DeltaSpansRange(min: real, max: real, n: nat)
    ensures Delta(min, max, n) * ((n + 1) as real) == max - min
  {
  }

  lemma StepMultiple(d: real, a: int)
    ensures d * ((a + 1) as real) == d * (a as real) + d
  {
  }

  lemma SplitPointsEvenlySpaced(min: real, max: real, n: nat)
    ensures EvenlySpaced(min, max, SplitPoints(min, max, n))
  {
    var s := SplitPoints(min, max, n);
    var d := Delta(min, max, n);
    if n > 0 {
      DeltaSpansRange(min, max, n);
      StepMultiple(d, n);
      assert s[n - 1] == max - d;
    }
    forall i | 0 <= i < n - 1
      ensures s[i + 1] == s[i] + d
    {
      StepMultiple(d, i + 1);
    }
  }

  /** The even spacing pins the boundaries down: any evenly spaced sequence
      of n boundaries is the one getSplits computes. */
  lemma {:induction false} EvenlySpacedIsSplitPoints(min: real, max: real, s: seq<real>)
    requires EvenlySpaced(min, max, s)
    ensures s == SplitPoints(min, max, |s|)
  {
    var n := |s|;
    var d := Delta(min, max, n);
    var t := SplitPoints(min, max, n);
    var i := 0;
    while i < n
      invariant 0 <= i <= n
      invariant forall j :: 0 <= j < i ==> s[j] == t[j]
    {
      if i == 0 {
        assert t[0] == min + d * 1.0;
      } else {
        StepMultiple(d, i);
        assert s[i] == s[i - 1] + d;
        assert t[i - 1] == min + d * (i as real);
      }
      i := i + 1;
    }
  }

  /** getSplits as written: a loop filling `splits[i] = min + delta * (i + 1)`. */
  method GetSplits(min: real, max: real, n: int) returns (r: Result<seq<real>>)
    ensures r.Failure? <==> n < 0
    ensures r.Failure? ==> r.error == NegativeArraySize(n)
    ensures r.Success? ==> |r.value| == n && EvenlySpaced(min, max, r.value)
  {
    if n < 0 {
      return Failure(NegativeArraySize(n));
    }
    var delta := (max - min) / ((n + 1) as real);
    var splits: seq<real> := [];
    var i := 0;
    while i < n
      invariant 0 <= i <= n
      invariant |splits| == i
      invariant forall j :: 0 <= j < i ==> splits[j] == min + delta * ((j + 1) as real)
    {
      splits := splits + [min + delta * ((i + 1) as real)];
      i := i + 1;
    }
    assert delta == Delta(min, max, n);
    assert forall j :: 0 <= j < n ==> splits[j] == SplitPoints(min, max, n)[j];
    assert splits == SplitPoints(min, max, n);
    SplitPointsEvenlySpaced(min, max, n);
    return Success(splits);
  }

  /** With min < max the boundaries strictly increase and all lie strictly
      inside (min, max). */
  lemma SplitPointsIncreaseInside(min: real, max: real, n: nat)
    requires min < max
    ensures forall i, j :: 0 <= i < j < n ==> SplitPoints(min, max, n)[i] < SplitPoints(min, max, n)[j]
    ensures forall i :: 0 <= i < n ==> min < SplitPoints(min, max, n)[i] < max
  {
    var s := SplitPoints(min, max, n);
    var d := Delta(min, max, n);
    assert d > 0.0;
    DeltaSpansRange(min, max, n);
    forall i, j | 0 <= i < j < n
      ensures s[i] < s[j]
    {
      MultiplyIncreasing(d, (i + 1) as real, (j + 1) as real);
    }
    forall i | 0 <= i < n
      ensures min < s[i] < max
    {
      SplitPointInside(min, max, n, i);
    }
  }

  /** One boundary lies strictly inside (min, max): it is a positive number
      of steps above min and fewer steps than the whole range spans. */
  lemma SplitPointInside(min: real, max: real, n: nat, i: nat)
    requires min < max && i < n
    ensures min < SplitPoints(min, max, n)[i] < max
  {
    var d := Delta(min, max, n);
    var k := (i + 1) as real;
    var top := (n + 1) as real;
    assert d > 0.0;
    DeltaSpansRange(min, max, n);
    MultiplyIncreasing(d, 0.0, k);
    MultiplyIncreasing(d, k, top);
    assert SplitPoints(min, max, n)[i] == min + d * k;
  }

  lemma MultiplyIncreasing(d: real, a: real, b: real)
    requires d > 0.0 && a < b
    ensures d * a < d * b
  {
  }

  /** With min == max every boundary equals min (degenerate, but no fault). */
  lemma SplitPointsDegenerate(min: real, n: nat)
    ensures forall i :: 0 <= i < n ==> SplitPoints(min, min, n)[i] == min
  {
    assert Delta(min, min, n) == 0.0;
  }

  /** The base-10 logarithm and power, as the platform computes them. */
  datatype RealMath = RealMath(log10: real -> real, pow10: real -> real)

  ghost predicate Log10Increasing(m: RealMath) {
    forall x, y :: 0.0 < x < y ==> m.log10(x) < m.log10(y)
  }

  ghost predicate Pow10Increasing(m: RealMath) {
    forall a, b :: a < b ==> m.pow10(a) < m.pow10(b)
  }

  ghost predicate Pow10UndoesLog10(m: RealMath) {
    forall x :: 0.0 < x ==> m.pow10(m.log10(x)) == x
  }

  /** The minimum getLogSplits works from: an exact zero is replaced by the
      zero substitute. */
  function ZeroSubstituted(min: real, zeroSub: real): (r: real)
    ensures min != 0.0 ==> r == min
    ensures r < 0.0 <==> min < 0.0 || (min == 0.0 && zeroSub < 0.0)
    ensures r == 0.0 <==> min == 0.0 && zeroSub == 0.0
  {
    if min == 0.0 then zeroSub else min
  }

  /** getLogSplits: the zero substitution comes first; a negative minimum is
      then refused; otherwise getSplits runs between log10 of the two ends
      and every boundary is raised back to a power of ten. */
  function LogSplits(min: real, max: real, n: int, zeroSub: real, m: RealMath): (r: Result<seq<real>>)
    ensures r == Failure(IllegalArgument) <==> ZeroSubstituted(min, zeroSub) < 0.0
    ensures r == Failure(NegativeArraySize(n)) <==> 0.0 <= ZeroSubstituted(min, zeroSub) && n < 0
    ensures r.Success? <==> 0.0 <= ZeroSubstituted(min, zeroSub) && 0 <= n
    ensures r.Success? ==> |r.value| == n
    ensures r.Success? ==>
      var logs := SplitPoints(m.log10(ZeroSubstituted(min, zeroSub)), m.log10(max), n);
      forall i :: 0 <= i < n ==> r.value[i] == m.pow10(logs[i])
  {
    var lo := ZeroSubstituted(min, zeroSub);
    if lo < 0.0 then Failure(IllegalArgument)
    else
      var logs :- Splits(m.log10(lo), m.log10(max), n);
      Success(seq(|logs|, i requires 0 <= i < |logs| => m.pow10(logs[i])))
  }

  /** A minimum of exactly zero behaves as if the stream's minimum had been
      the zero substitute. */
  lemma LogSplitsOfZeroMinimum(max: real, n: int, zeroSub: real, other: real, m: RealMath)
    requires zeroSub != 0.0
    ensures LogSplits(0.0, max, n, zeroSub, m) == LogSplits(zeroSub, max, n, other, m)
  {
  }

  /** Under a monotone log10 and pow10, log boundaries over a positive range
      strictly increase, and when pow10 undoes log10 they lie strictly inside
      the (substituted) range. */
  lemma LogSplitsIncreaseInside(min: real, max: real, n: nat, zeroSub: real, m: RealMath)
    requires Log10Increasing(m) && Pow10Increasing(m)
    requires 0.0 < ZeroSubstituted(min, zeroSub) < max
    ensures LogSplits(min, max, n, zeroSub, m).Success?
    ensures var s := LogSplits(min, max, n, zeroSub, m).value;
      forall i, j :: 0 <= i < j < n ==> s[i] < s[j]
    ensures Pow10UndoesLog10(m) ==>
      var s := LogSplits(min, max, n, zeroSub, m).value;
      forall i :: 0 <= i < n ==> ZeroSubstituted(min, zeroSub) < s[i] < max
  {
    var lo := ZeroSubstituted(min, zeroSub);
    var logs := SplitPoints(m.log10(lo), m.log10(max), n);
    SplitPointsIncreaseInside(m.log10(lo), m.log10(max), n);
    var s := LogSplits(min, max, n, zeroSub, m).value;
    assert forall i :: 0 <= i < n ==> s[i] == m.pow10(logs[i]);
    if Pow10UndoesLog10(m) {
      forall i | 0 <= i < n
        ensures lo < s[i] < max
      {
        assert m.pow10(m.log10(lo)) == lo;
        assert m.pow10(m.log10(max)) == max;
      }
    }
  }
}
